=== FILE: README.md ===
# Debt payoff engine and credential validators, in Dafny

This project models the computational core of a debt "snowball" calculator.

**The payoff simulation engine** (`lib/calculations/payoff.ts`). Given a list of
debts and a monthly extra-payment budget, the engine first orders the debts:

- **snowball** puts the smallest balance first;
- **avalanche** puts the highest APR first.

It then simulates the debts month by month. In each month:

1. Every debt still open accrues one month of interest, `balance * apr / 1200`.
2. Each of those debts is charged its minimum payment, capped at what it owes.
   The charge is recorded as one ledger row.
3. A debt that this minimum brings to zero or below is marked paid off, and its
   minimum payment joins the month's extra-payment pool.
4. The pool, capped at the balance, goes to the first debt in sorted order that
   is still open. The amount is added to that debt's row for the month.

The loop stops when every debt is paid off or after 600 months. The result holds:

- the ledger;
- the total interest, rounded to cents;
- the number of months;
- a first-month payment snapshot.

`calculatePayoffComparison` runs both orderings on the same input.

**The validators** (`lib/validation.ts`). `validatePassword` runs five checks in
a fixed order; the first one that fails decides the error message.
`validateEmail` reports a blank address as missing, and otherwise tests the
address against the pattern `^[^\s@]+@[^\s@]+\.[^\s@]+$`.

Modules:

- `Wrappers`: `Option`.
- `DebtTypes`: the records of `types/debt.types.ts`.
- `Money`: `Math.min`, `Math.max` and rounding to cents, over exact reals.
- `Orderings`: the two stable sorts.
- `Simulation`: one month as a pure `Step` on a `State`, the loop as `Simulate`, and the assembly of a `PayoffStrategy`.
- `Payoff`: the exported entry points.
- `Scenarios`: worked months on small inputs.
- `Validation`: the two validators.

Modelling choices:

- The source's `for` loop mutates working copies and pushes ledger rows. Here
  that loop is the recursive `MinimumPass`.
- The `find` calls become `FirstOpen` and `FindRow`, which return an index or
  `None`.
- The extra payment edits the ledger row found **by debt name**, as the code
  does, not by position. So when two debts share a name, the extra is added to
  the first row of this month that carries that name.
  `Scenarios.SharedNameMisdirectsExtra` shows this on two debts. The lemmas
  that pin each row to its own debt's balance take distinct names as a
  hypothesis (`Simulation.DistinctNames`). So does
  `Simulation.PayoffLastRowsPaid`, which states that every debt's last row
  shows a balance of 0 once the run stops before month 600. With shared names
  that fails: `Scenarios.SharedNameLeavesStaleBalance` gives a run that
  stops after month 1 with both debts paid off, whose last row for the name
  still shows a positive balance.
- The engine functions are total and check nothing, just as the code checks
  nothing. Where a guarantee needs amounts that are not negative, the lemma
  stating it takes that as a hypothesis (`DebtTypes.ValidInput`,
  `Simulation.Consistent`).
- The engine validates nothing: `calculatePayoffStrategy` and its callers
  simulate whatever amounts they are given, negative ones included.
- A freed minimum payment does not keep rolling. `payoff.ts:60` resets the
  pool to the plain extra payment at the start of every month, so a freed
  minimum helps only in the month its debt is paid off.
  `Simulation.StepPool` states this, and `Scenarios.RolloverMonthOne` and
  `Scenarios.RolloverMonthTwo` show it on two debts.

## Model

| member | source | states |
|---|---|---|
| Money.Min | lib/calculations/payoff.ts:94 | `Math.min`: the result is at most both arguments and is one of them |
| Money.Max | lib/calculations/payoff.ts:79 | `Math.max`: the result is at least both arguments and is one of them |
| Money.RoundCents | lib/calculations/payoff.ts:130 | `Math.round(x*100)/100` gives a whole number of cents, within half a cent of `x` (strictly above `x - 0.005`, at most `x + 0.005`), and not negative for `x >= 0` |
| Money.RoundCentsFixesCents | lib/calculations/payoff.ts:130 | rounding an amount already in whole cents returns it unchanged |
| Money.RoundCentsIdempotent | lib/calculations/payoff.ts:130 | rounding the rounded interest total again changes nothing |
| Orderings.Insert | lib/calculations/payoff.ts:16 | one insertion step of the sort adds exactly the inserted debt: the result's multiset is the input's plus that debt |
| Orderings.InsertKeepsSorted | lib/calculations/payoff.ts:16 | inserting into a list sorted by the key keeps it sorted |
| Orderings.InsertKeyClass | lib/calculations/payoff.ts:16 | inserting puts the debt at the head of its own key class and leaves every other key class unchanged |
| Orderings.SortByKey | lib/calculations/payoff.ts:16 | the sort returns a permutation (same multiset) of its input, ordered by the key |
| Orderings.SortByKeyStable | lib/calculations/payoff.ts:16 | the sort is stable: debts with equal keys keep their input order |
| Orderings.SnowballOrder | lib/calculations/payoff.ts:14-19 | the snowball list is a permutation of the input with balances not decreasing |
| Orderings.AvalancheOrder | lib/calculations/payoff.ts:24-29 | the avalanche list is a permutation of the input with APRs not increasing |
| Orderings.SnowballStable | lib/calculations/payoff.ts:16 | debts of equal balance keep their input order, as `Array.prototype.sort` is stable |
| Orderings.AvalancheStable | lib/calculations/payoff.ts:26 | debts of equal APR keep their input order |
| Simulation.MonthlyInterest | lib/calculations/payoff.ts:6-9 | a month's interest times 1200 equals balance times APR, and it is not negative for a balance and an APR that are not negative |
| Simulation.ChargeMinimum | lib/calculations/payoff.ts:66-86 | the payment charged is the smaller of the minimum and balance-plus-interest; payment = principal + interest; the balance drops by the principal; the row records the balance clamped at 0; the debt is paid off exactly when its balance is at most 0; with amounts not negative the row is sound and the balance stays at least 0 |
| Simulation.ZeroBalanceCharge | lib/calculations/payoff.ts:66-86 | a debt whose balance is already 0 gets an all-zero row and is marked paid off |
| Simulation.InterestFreeCharge | lib/calculations/payoff.ts:66-70 | at 0 % APR there is no interest and the payment is min(minimum, balance), all of it principal |
| Simulation.MinimumPass | lib/calculations/payoff.ts:62-87 | the minimum pass leaves debts already paid off untouched, keeps each debt's record, and dates every row it pushes with the current month |
| Simulation.OpenIndices | lib/calculations/payoff.ts:63-64 | every listed position holds a debt not yet paid off |
| Simulation.OpenIndicesIncreasing | lib/calculations/payoff.ts:63-64 | the open positions are listed in increasing order, so each open debt appears once |
| Simulation.OpenIndicesComplete | lib/calculations/payoff.ts:63-64 | every debt not yet paid off is listed, at some place `k` |
| Simulation.AllOpenIndices | lib/calculations/payoff.ts:63-64 | when no debt is paid off, every debt gets a row in its own place |
| Simulation.MinimumPassCharges | lib/calculations/payoff.ts:63-70 | every debt open at the start of the pass is charged exactly `ChargeMinimum` |
| Simulation.MinimumPassChargeRows | lib/calculations/payoff.ts:63-80 | the pass pushes one row per open debt, and the k-th row is exactly the charge row of the k-th open debt: month, name, payment, principal, interest and clamped balance |
| Simulation.PassRowsRecordCharges | lib/calculations/payoff.ts:66-80 | the row of each open debt names it, holds its month's interest, the fall of its balance as principal, and its new balance clamped at 0 |
| Simulation.MinimumPassInterest | lib/calculations/payoff.ts:66-78 | the interest the pass adds to the running total is the sum of the interest in the rows it pushes |
| Simulation.MinimumPassRows | lib/calculations/payoff.ts:63-80 | the rows pushed name exactly the debts open at the start of the pass, in sorted order, one row each |
| Simulation.MinimumPassPool | lib/calculations/payoff.ts:60-86 | after the pass the pool equals the starting pool plus the minimum payments of the debts this pass paid off |
| Simulation.MinimumPassHealthy | lib/calculations/payoff.ts:63-86 | with amounts not negative the pass keeps every balance at least 0 and every paid-off balance at 0. Every debt left open has a positive balance. Every row is sound, and the interest and freed minimums are not negative |
| Simulation.FirstOpen | lib/calculations/payoff.ts:91 | `find(!isPaidOff)`: `None` exactly when every debt is paid off, otherwise the first open debt |
| Simulation.FindRow | lib/calculations/payoff.ts:98-100 | `find(month and name match)`: the first matching row, or `None` when no row matches |
| Simulation.ApplyExtra | lib/calculations/payoff.ts:89-112 | the extra payment keeps the number of debts and rows, each debt's record, and every paid-off debt |
| Simulation.ExtraPaysFirstOpen | lib/calculations/payoff.ts:89-111 | an empty pool or all debts paid off changes nothing; otherwise only the first open debt changes, by min(pool, balance), and it is marked paid off exactly when that takes it to 0 or below |
| Simulation.ExtraEditsTargetRow | lib/calculations/payoff.ts:89-106 | no pool or no open debt leaves the ledger as it is; otherwise, when no row of this month carries the first open debt's name the ledger is unchanged, and when the row at `k` does, only that row changes: payment and principal grow by min(pool, balance), interest, month and name stay, and the balance becomes the debt's new balance clamped at 0 |
| Simulation.ExtraEditsRow | lib/calculations/payoff.ts:97-106 | the same edit once the row at `k` has been found |
| Simulation.ExtraKeepsInterest | lib/calculations/payoff.ts:97-106 | the extra payment never changes the interest recorded in the ledger |
| Simulation.FindsOwnRow | lib/calculations/payoff.ts:98-100 | with distinct names and only earlier months before this month's rows, the lookup finds the debt's own row of this month |
| Simulation.FirstOpenRow | lib/calculations/payoff.ts:91-100 | with distinct names the lookup for the first open debt lands on that debt's row among the rows the pass pushed |
| Simulation.PassRecordsBalances | lib/calculations/payoff.ts:66-80 | before the extra payment each row of the month records the balance its debt was left with |
| Simulation.EditKeepsBalancesRecorded | lib/calculations/payoff.ts:94-106 | paying an amount off one debt and adding it to that debt's row keeps every row of the month in step with its debt's balance |
| Simulation.ExtraRecordsBalances | lib/calculations/payoff.ts:89-106 | with distinct names, after the extra payment every row of the month records its debt's interest, the full fall of its balance as principal, and its final balance clamped at 0 |
| Simulation.PassAndExtraRecordBalances | lib/calculations/payoff.ts:63-106 | the minimum pass followed by the extra payment leaves each open debt's row holding its interest, the fall of its balance and its final balance clamped at 0 |
| Simulation.ExtraKeepsRows | lib/calculations/payoff.ts:97-106 | the extra payment leaves rows of other months untouched and keeps the month and name of every row; with a pool that is not negative, payment = principal + interest still holds for every row |
| Simulation.ExtraKeepsHealthy | lib/calculations/payoff.ts:89-111 | with a pool that is not negative no balance goes below 0 and every debt left open keeps a positive balance |
| Simulation.Step | lib/calculations/payoff.ts:56-113 | one month advances the month counter by one, keeps every debt's record and leaves debts already paid off unchanged |
| Simulation.StepRowNames | lib/calculations/payoff.ts:73-80 | a month appends one row per debt open at its start, in sorted order |
| Simulation.StepRowMonths | lib/calculations/payoff.ts:73-106 | the rows a month appends carry that month, and earlier months' rows are not edited |
| Simulation.StepLedger | lib/calculations/payoff.ts:63-106 | the two statements above, together |
| Simulation.ExtraKeepsRowInterests | lib/calculations/payoff.ts:97-106 | the extra payment changes no row's interest |
| Simulation.ExtraKeepsRowNames | lib/calculations/payoff.ts:97-106 | the extra payment changes no row's name |
| Simulation.PassAndExtraRows | lib/calculations/payoff.ts:63-106 | the pass and the extra payment together append one row per open debt, in order, naming it and holding the interest on its balance before the pass |
| Simulation.StepRowInterests | lib/calculations/payoff.ts:63-80 | a month adds one row per open debt, and the k-th new row's interest is the monthly interest on that debt's balance at the start of the month |
| Simulation.StepPool | lib/calculations/payoff.ts:60-94 | the pool that month's extra payment receives is the extra payment plus the minimums freed in that month's pass, and nothing carried over from earlier months |
| Simulation.StepRowsRecordBalances | lib/calculations/payoff.ts:63-106 | with distinct names, the row a month writes for each debt open at its start holds that month's interest, the fall of the debt's balance over the month as principal, and its balance at the month's end clamped at 0 |
| Simulation.StepInterest | lib/calculations/payoff.ts:71-78 | a month adds to the running interest exactly the interest of the rows it writes |
| Simulation.StepHealthy | lib/calculations/payoff.ts:63-111 | with amounts not negative a month keeps every balance at least 0, and every open balance positive, and the interest total not negative |
| Simulation.StepRowsSound | lib/calculations/payoff.ts:73-106 | with amounts not negative every row keeps payment = principal + interest, with each of these and the remaining balance not negative |
| Simulation.StepRowsDated | lib/calculations/payoff.ts:57-106 | every row stays dated between month 1 and the current month |
| Simulation.StepConsistent | lib/calculations/payoff.ts:56-113 | one month preserves the loop invariant `Consistent` |
| Simulation.Start | lib/calculations/payoff.ts:44-49 | the working copies start open, at each debt's recorded balance, in sorted order, with an empty ledger at month 0 |
| Simulation.StartConsistent | lib/calculations/payoff.ts:39-49 | the starting state satisfies the loop invariant for input that is not negative |
| Simulation.Simulate | lib/calculations/payoff.ts:56 | the loop ends by month 600; if it ends earlier every debt is paid off; with all debts paid off it does nothing; otherwise it runs at least one month |
| Simulation.SimulateConsistent | lib/calculations/payoff.ts:56-113 | the invariant holds when the loop ends |
| Simulation.SimulateKeepsPaidOff | lib/calculations/payoff.ts:63-64 | a debt once paid off stays paid off with its working copy unchanged to the end |
| Simulation.SimulateUnfold | lib/calculations/payoff.ts:56-57 | while a debt is open and month < 600 the loop runs one more month |
| Simulation.SimulateLedgerNames | lib/calculations/payoff.ts:56-87 | the ledger names, row by row, are exactly the open debts of each simulated month in sorted order, so a paid-off debt never gets another row |
| Simulation.SimulateInterest | lib/calculations/payoff.ts:56-113 | over the whole loop, the running interest grows by exactly the interest recorded in the ledger |
| Simulation.SimulateKeepsRows | lib/calculations/payoff.ts:73-106 | when every row is dated no later than the current month, rows already written keep their place and content to the end of the run |
| Simulation.SimulateLastRow | lib/calculations/payoff.ts:56-80 | a run that starts with an open debt before month 600 ends with a row dated in its final month |
| Simulation.StepRowsNamed | lib/calculations/payoff.ts:63-80 | a month appends one row per open debt, the k-th naming the k-th open debt |
| Simulation.StepRowsNotLater | lib/calculations/payoff.ts:73-106 | when every row is dated no later than the current month, a month leaves the old rows as they were and dates the new ones in the new month |
| Simulation.OpenDebtLastRow | lib/calculations/payoff.ts:63-80 | with distinct names, the row a month writes for an open debt is that debt's last row |
| Simulation.PaidDebtLastRow | lib/calculations/payoff.ts:63-64 | with distinct names, a paid-off debt gets no new row, so its last row does not move |
| Simulation.LastRowsAfterMonth | lib/calculations/payoff.ts:63-106 | with distinct names, if each debt's last row records its balance before a month, it does after the month too |
| Simulation.StepLastRows | lib/calculations/payoff.ts:56-112 | one month of the loop keeps each debt's last row in step with its balance |
| Simulation.SimulateLastRows | lib/calculations/payoff.ts:56-112 | the whole loop keeps each debt's last row in step with its balance |
| Simulation.SimulateLastRowsPaid | lib/calculations/payoff.ts:56-112 | for input that is not negative with distinct names, a run that stops before month 600 leaves every debt's last row at a balance of 0 |
| Simulation.DebtPayments | lib/calculations/payoff.ts:116-125 | the snapshot has one entry per sorted debt, in order. An entry whose id equals the first debt's id gets minimum + extra; every other entry gets its minimum |
| Simulation.SnapshotOfMinimums | lib/calculations/payoff.ts:116-125 | snapshot entries that equal the minimums add up to the total minimum payment |
| Simulation.SnapshotTotal | lib/calculations/payoff.ts:116-125 | with distinct ids the snapshot adds up to the total minimum plus the extra payment once |
| Simulation.CalculatePayoffStrategy | lib/calculations/payoff.ts:34-134 | months are at most 600 and 0 exactly for no debts; no debts gives an empty ledger, zero interest and an empty snapshot; the interest total is the ledger's interest summed and rounded to cents; the snapshot follows the sorted ids, giving the first sorted debt its minimum plus the extra payment and every other debt its minimum |
| Simulation.PayoffStrategySound | lib/calculations/payoff.ts:39-133 | for input that is not negative every row is sound and dated within the run. The total interest is not negative. When `monthsToPayoff` is below 600, every debt is paid off at 0 |
| Simulation.PayoffMonthsIsLastRow | lib/calculations/payoff.ts:56-131 | with at least one debt the ledger is not empty and `monthsToPayoff` is the month of its last row |
| Simulation.PayoffLastRowsPaid | lib/calculations/payoff.ts:56-133 | for input that is not negative with distinct names, when `monthsToPayoff` is below 600 every debt has a last row in the ledger, and it shows a remaining balance of 0 |
| Simulation.StartStepInterests | lib/calculations/payoff.ts:63-80 | month 1 charges each debt one month of interest on its full balance, in sorted order |
| Simulation.StartStepNames | lib/calculations/payoff.ts:63-80 | month 1 writes one row per debt, dated month 1, naming the debts in sorted order |
| Simulation.FirstMonthRows | lib/calculations/payoff.ts:56-80 | month 1 has one row per debt, in sorted order, even for a debt whose balance is already 0, each charged the monthly interest on the debt's full balance |
| Simulation.AllOpenNames | lib/calculations/payoff.ts:63-64 | when no debt is paid off, the open names are all the names in order |
| Payoff.CalculateSnowball | lib/calculations/payoff.ts:14-19 | the strategy is tagged snowball, stops by month 600, and its snapshot lists the debts in snowball order, the first debt's id getting its minimum plus the extra payment and every other its minimum; the interest total is the ledger's interest rounded to cents |
| Payoff.CalculateAvalanche | lib/calculations/payoff.ts:24-29 | the strategy is tagged avalanche, stops by month 600, and its snapshot lists the debts in avalanche order, the first debt's id getting its minimum plus the extra payment and every other its minimum; the interest total is the ledger's interest rounded to cents |
| Payoff.SnowballFirstMonth | lib/calculations/payoff.ts:14-19 | for input that is not negative, month 1 of the snowball ledger names every debt once, in order of balances that do not decrease |
| Payoff.AvalancheFirstMonth | lib/calculations/payoff.ts:24-29 | for input that is not negative, month 1 of the avalanche ledger names every debt once, in order of APRs that do not increase |
| Payoff.CalculatePayoffComparison | lib/calculations/payoff.ts:139-152 | the result carries both strategies with their tags and the inputs unchanged; the snowball snapshot lists the debt ids by balance and the avalanche snapshot by rate; in each, the entries sharing the first debt's id get minimum plus the extra payment and the others their minimum; each interest total is its ledger's interest rounded to cents |
| Payoff.ComparisonFirstMonth | lib/calculations/payoff.ts:139-152 | month 1 of each strategy names the debts in that strategy's order and charges each the monthly interest on its full balance |
| Payoff.ComparisonOfNoDebts | lib/calculations/payoff.ts:39-133 | no debts: both strategies report 0 months, no rows, zero interest and no snapshot |
| Payoff.ComparisonOfSomeDebts | lib/calculations/payoff.ts:56-57 | at least one debt: both strategies run at least one month |
| Payoff.SameOrderSameSchedule | lib/calculations/payoff.ts:139-152 | when both orderings agree the two strategies differ only in their tag |
| Payoff.ComparisonSound | lib/calculations/payoff.ts:139-152 | for input that is not negative both ledgers are sound and both interest totals are not negative |
| Payoff.SortedInputValid | lib/calculations/payoff.ts:16 | reordering input that is not negative leaves it not negative |
| Scenarios.RolloverMonthOne | lib/calculations/payoff.ts:82-105 | a debt paid off by its minimum frees that minimum for the next open debt in the same month |
| Scenarios.RolloverMonthTwo | lib/calculations/payoff.ts:60 | in the following month that freed minimum is gone again: the next debt gets only its own minimum |
| Scenarios.FirstMonthPass | lib/calculations/payoff.ts:62-87 | the minimum pass of month 1 of that scenario, row by row |
| Scenarios.SecondMonth | lib/calculations/payoff.ts:56-112 | month 2 of that scenario from its month-1 state |
| Scenarios.SharedNameMisdirectsExtra | lib/calculations/payoff.ts:98-105 | when two debts share a name, the freed minimum is added to the first debt's row although the second debt's balance falls by it; the second row keeps only its minimum and its balance before the extra |
| Scenarios.PassOfTwo | lib/calculations/payoff.ts:62-87 | the minimum pass over two open debts charges each in turn, and a debt it pays off adds its minimum to the pool |
| Scenarios.SharedNameMonthOne | lib/calculations/payoff.ts:82-105 | two debts under one name, the second cleared by the first's freed minimum: both are paid off in month 1, the freed amount lands on the first row, and the second row keeps the balance left after its own minimum |
| Scenarios.SharedNameLeavesStaleBalance | lib/calculations/payoff.ts:56-133 | the whole run of that pair stops after month 1, but the last row carrying the name shows a positive balance |
| Scenarios.FirstMonthOfTwoDebts | lib/calculations/payoff.ts:6-105 | month 1 of 1000 at 20 % and 3000 at 12 % with extra 100: interest 50/3 and 30, payments 150 and 90 |
| Validation.Accept | lib/validation.ts:30 | an accepted result is valid with no error |
| Validation.Reject | lib/validation.ts:10-12 | a rejected result is not valid and carries its message |
| Validation.Contains | lib/validation.ts:14 | `/[class]/.test(s)` holds exactly when some character of `s` is in the class |
| Validation.ValidatePassword | lib/validation.ts:9-31 | valid exactly when the password has length at least 12 and a lowercase letter, an uppercase letter, a digit and a special character; each message appears exactly when its check is the first to fail, in the order length, lowercase, uppercase, digit, special; an error comes exactly with `valid == false` |
| Validation.NotSpecial | lib/validation.ts:26 | backquote, tilde and space are not in the special-character class |
| Validation.IndexOf | lib/validation.ts:37 | the first position of a character, or `None` when it does not occur |
| Validation.ShapeMatchesPattern | lib/validation.ts:37 | an address with no white space, one `@` with something before it, and an inner `.` after it matches the pattern |
| Validation.MatchedCharIsNotWhitespace | lib/validation.ts:37 | an address matching the pattern contains no white space |
| Validation.MatchedSidesHaveNoAt | lib/validation.ts:37 | in a match, neither side of the `@` contains another `@` |
| Validation.SplitHasShape | lib/validation.ts:37 | any split that matches the pattern has the scanned shape |
| Validation.PatternMatchesShape | lib/validation.ts:37 | an address matching the pattern has the scanned shape |
| Validation.EmailShapeIsPattern | lib/validation.ts:37 | the scanned shape and the regular expression accept exactly the same addresses |
| Validation.ValidateEmail | lib/validation.ts:36-48 | a blank (empty or white-space-only) address is rejected as missing before any format check; otherwise it is rejected as malformed exactly when it does not match the pattern; it is valid exactly when it matches |

## Left out

- Input validation: the engine does no check on its input, and the model adds none. The guarantees about amounts hold for input that is not negative, stated as a hypothesis of the lemmas.
- Floating point: amounts are exact reals. Rounding residues of IEEE-754 doubles, `NaN` and infinities are not modelled; `Math.round` is modelled as `floor(y + 1/2)`, which is what it does.
- `totalMinimumPayment` and `totalAvailablePayment` (lib/calculations/payoff.ts:52-53): computed and never used, so they change no output.
- `MAX_PAYOFF_MONTHS` in lib/constants.ts: not used by the engine, which uses its own limit of 600.
- Validation.ValidatePassword: length counts Unicode code points, where JavaScript's `length` counts UTF-16 code units; a password with characters outside the Basic Multilingual Plane can be longer in JavaScript than here.
- Validation.ValidateEmail: a `null` or `undefined` address (the `!email` test) is not a string here; the empty string covers that branch.
- Simulation.PayoffLastRowsPaid: takes distinct debt names as a hypothesis, because with shared names the ledger edit by name leaves a stale balance on the last row, as `Scenarios.SharedNameLeavesStaleBalance` shows.
- Aliasing: JavaScript returns the caller's array by reference and the sorts copy it first. Dafny sequences are values, so the sorts leave the caller's sequence unchanged by construction, which needs no lemma.
- The React pages and components, Supabase access and authentication, the chart aggregation, `lib/formatters.ts` and `lib/env.ts`: user interface, network I/O and foreign libraries.

=== FILE: debt_types.dfy ===
/**
 The records exchanged between the payoff engine and the rest of the
 application (types/debt.types.ts). They carry no behaviour of their own.
 Money amounts and rates are exact reals.
 */
module DebtTypes {

  /** A debt as the user recorded it. `apr` is a percentage (20.0 means 20 %). */
  datatype Debt = Debt(
    id: string,
    name: string,
    balance: real,
    minimumPayment: real,
    apr: real
  )

  /** One ledger row: what was paid on one debt in one month. */
  datatype MonthlyPayment = MonthlyPayment(
    month: nat,
    debtName: string,
    payment: real,
    principal: real,
    interest: real,
    remainingBalance: real
  )

  /** The first-month payment shown for one debt. */
  datatype DebtPayment = DebtPayment(debtId: string, debtName: string, monthlyPayment: real)

  datatype PayoffMethod = Snowball | Avalanche

  datatype PayoffStrategy = PayoffStrategy(
    payoffMethod: PayoffMethod,
    monthlyPayments: seq<MonthlyPayment>,
    totalInterestPaid: real,
    monthsToPayoff: nat,
    debtPayments: seq<DebtPayment>
  )

  datatype CalculationResult = CalculationResult(
    snowball: PayoffStrategy,
    avalanche: PayoffStrategy,
    debts: seq<Debt>,
    extraPayment: real
  )

  /** The engine does not check its input; its guarantees hold for debts whose amounts are not negative. */
  predicate NonNegative(d: Debt) {
    d.balance >= 0.0 && d.minimumPayment >= 0.0 && d.apr >= 0.0
  }

  predicate ValidInput(debts: seq<Debt>, extraPayment: real) {
    extraPayment >= 0.0 && forall i :: 0 <= i < |debts| ==> NonNegative(debts[i])
  }
}

=== FILE: money.dfy ===
/** The JavaScript `Math` operations the payoff engine applies to money, over exact reals. */
module Money {

  /** `Math.min` on two amounts. */
  function Min(a: real, b: real): (r: real)
    ensures r <= a && r <= b
    ensures r == a || r == b
  {
    if a <= b then a else b
  }

  /** `Math.max` on two amounts. */
  function Max(a: real, b: real): (r: real)
    ensures r >= a && r >= b
    ensures r == a || r == b
  {
    if a >= b then a else b
  }

  /** A whole number of cents. */
  predicate IsCents(x: real) {
    (x * 100.0).Floor as real == x * 100.0
  }

  /**
   `Math.round(x * 100) / 100`: `Math.round` rounds half-way cases towards
   plus infinity, which is `floor(y + 1/2)`.
   */
  function RoundCents(x: real): (r: real)
    ensures IsCents(r)
    ensures x - 0.005 < r <= x + 0.005
    ensures x >= 0.0 ==> r >= 0.0
  {
    ((x * 100.0 + 0.5).Floor as real) / 100.0
  }

  /** Rounding an amount that is already whole cents leaves it unchanged. */
  lemma RoundCentsFixesCents(x: real)
    requires IsCents(x)
    ensures RoundCents(x) == x
  {
    var n := (x * 100.0).Floor;
    assert (x * 100.0 + 0.5).Floor == n;
  }

  /** Rounding twice is rounding once. */
  lemma RoundCentsIdempotent(x: real)
    ensures RoundCents(RoundCents(x)) == RoundCents(x)
  {
    RoundCentsFixesCents(RoundCents(x));
  }
}

=== FILE: orderings.dfy ===
/**
 The two repayment orderings (lib/calculations/payoff.ts, calculateSnowball
 and calculateAvalanche). `Array.prototype.sort` is stable, so sorting with
 the comparator `a.balance - b.balance` (or `b.apr - a.apr`) is a stable sort
 by the key `balance` (or `-apr`). Both copy their input; a Dafny sequence is
 a value, so the caller's list is never changed.
 */
module Orderings {
  import opened DebtTypes

  predicate SortedByKey(s: seq<Debt>, key: Debt -> real) {
    forall i, j :: 0 <= i < j < |s| ==> key(s[i]) <= key(s[j])
  }

  /** The debts of `s` whose key is `k`, in their order in `s`. */
  function KeyClass(s: seq<Debt>, key: Debt -> real, k: real): seq<Debt>
  {
    if |s| == 0 then []
    else (if key(s[0]) == k then [s[0]] else []) + KeyClass(s[1..], key, k)
  }

  /** Puts `d` in front of the first debt whose key is not smaller than its own. */
  function Insert(d: Debt, s: seq<Debt>, key: Debt -> real): (r: seq<Debt>)
    ensures |r| == |s| + 1
    ensures multiset(r) == multiset(s) + multiset{d}
  {
    if |s| == 0 || key(d) <= key(s[0]) then [d] + s
    else
      assert s == [s[0]] + s[1..];
      [s[0]] + Insert(d, s[1..], key)
  }

  lemma {:induction false} InsertKeepsSorted(d: Debt, s: seq<Debt>, key: Debt -> real)
    requires SortedByKey(s, key)
    ensures SortedByKey(Insert(d, s, key), key)
  {
    if |s| == 0 || key(d) <= key(s[0]) {
    } else {
      var rest := Insert(d, s[1..], key);
      InsertKeepsSorted(d, s[1..], key);
      forall j | 0 <= j < |rest|
        ensures key(s[0]) <= key(rest[j])
      {
        assert rest[j] in multiset(rest);
        if rest[j] != d {
          assert rest[j] in multiset(s[1..]);
          var m :| 0 <= m < |s[1..]| && s[1..][m] == rest[j];
          assert s[1 + m] == rest[j];
        }
      }
    }
  }

  /** Inserting `d` adds it at the head of its own key class and leaves every other class alone. */
  lemma {:induction false} InsertKeyClass(d: Debt, s: seq<Debt>, key: Debt -> real, k: real)
    ensures KeyClass(Insert(d, s, key), key, k)
         == if key(d) == k then [d] + KeyClass(s, key, k) else KeyClass(s, key, k)
  {
    var r := Insert(d, s, key);
    if |s| == 0 || key(d) <= key(s[0]) {
      assert r[1..] == s;
    } else {
      InsertKeyClass(d, s[1..], key, k);
      assert r[1..] == Insert(d, s[1..], key);
    }
  }

  /** Stable insertion sort, ascending by `key`. */
  function SortByKey(s: seq<Debt>, key: Debt -> real): (r: seq<Debt>)
    ensures |r| == |s|
    ensures multiset(r) == multiset(s)
    ensures SortedByKey(r, key)
  {
    if |s| == 0 then []
    else
      assert s == [s[0]] + s[1..];
      InsertKeepsSorted(s[0], SortByKey(s[1..], key), key);
      Insert(s[0], SortByKey(s[1..], key), key)
  }

  /** The sort is stable: within one key class the input order survives. */
  lemma {:induction false} SortByKeyStable(s: seq<Debt>, key: Debt -> real, k: real)
    ensures KeyClass(SortByKey(s, key), key, k) == KeyClass(s, key, k)
  {
    if |s| > 0 {
      SortByKeyStable(s[1..], key, k);
      InsertKeyClass(s[0], SortByKey(s[1..], key), key, k);
    }
  }

  function SnowballKey(d: Debt): real { d.balance }

  function AvalancheKey(d: Debt): real { -d.apr }

  /** The snowball order: smallest balance first, ties in input order. */
  function SnowballOrder(debts: seq<Debt>): (r: seq<Debt>)
    ensures multiset(r) == multiset(debts)
    ensures forall i, j :: 0 <= i < j < |r| ==> r[i].balance <= r[j].balance
  {
    SortByKey(debts, SnowballKey)
  }

  /** The avalanche order: highest APR first, ties in input order. */
  function AvalancheOrder(debts: seq<Debt>): (r: seq<Debt>)
    ensures multiset(r) == multiset(debts)
    ensures forall i, j :: 0 <= i < j < |r| ==> r[i].apr >= r[j].apr
  {
    SortByKey(debts, AvalancheKey)
  }

  /** Debts of equal balance keep their input order in the snowball order. */
  lemma SnowballStable(debts: seq<Debt>, balance: real)
    ensures KeyClass(SnowballOrder(debts), SnowballKey, balance) == KeyClass(debts, SnowballKey, balance)
  {
    SortByKeyStable(debts, SnowballKey, balance);
  }

  /** Debts of equal APR keep their input order in the avalanche order. */
  lemma AvalancheStable(debts: seq<Debt>, apr: real)
    ensures KeyClass(AvalancheOrder(debts), AvalancheKey, -apr) == KeyClass(debts, AvalancheKey, -apr)
  {
    SortByKeyStable(debts, AvalancheKey, -apr);
  }
}

=== FILE: payoff.dfy ===
/**
 The public entry points of lib/calculations/payoff.ts: the two orderings
 fed to the simulation, and the comparison that runs both on the same input.
 */
module Payoff {
  import opened DebtTypes
  import opened Orderings
  import opened Money
  import opened Simulation

  /** `calculateSnowball`: simulate over the debts sorted by balance, smallest first. */
  function CalculateSnowball(debts: seq<Debt>, extraPayment: real): (r: PayoffStrategy)
    ensures r.payoffMethod == Snowball
    ensures r.monthsToPayoff <= MaxMonths
    ensures |r.debtPayments| == |debts|
    ensures forall i :: 0 <= i < |debts| ==> r.debtPayments[i].debtId == SnowballOrder(debts)[i].id
    ensures forall i :: 0 <= i < |debts| ==>
      r.debtPayments[i].monthlyPayment == SnowballOrder(debts)[i].minimumPayment
        + (if SnowballOrder(debts)[i].id == SnowballOrder(debts)[0].id then extraPayment else 0.0)
    ensures r.totalInterestPaid == RoundCents(SumInterest(r.monthlyPayments))
  {
    CalculatePayoffStrategy(SnowballOrder(debts), extraPayment, Snowball)
  }

  /** `calculateAvalanche`: simulate over the debts sorted by APR, highest first. */
  function CalculateAvalanche(debts: seq<Debt>, extraPayment: real): (r: PayoffStrategy)
    ensures r.payoffMethod == Avalanche
    ensures r.monthsToPayoff <= MaxMonths
    ensures |r.debtPayments| == |debts|
    ensures forall i :: 0 <= i < |debts| ==> r.debtPayments[i].debtId == AvalancheOrder(debts)[i].id
    ensures forall i :: 0 <= i < |debts| ==>
      r.debtPayments[i].monthlyPayment == AvalancheOrder(debts)[i].minimumPayment
        + (if AvalancheOrder(debts)[i].id == AvalancheOrder(debts)[0].id then extraPayment else 0.0)
    ensures r.totalInterestPaid == RoundCents(SumInterest(r.monthlyPayments))
  {
    CalculatePayoffStrategy(AvalancheOrder(debts), extraPayment, Avalanche)
  }

  /** `calculatePayoffComparison`: both strategies over the same debts and extra payment, plus the inputs. */
  function CalculatePayoffComparison(debts: seq<Debt>, extraPayment: real): (r: CalculationResult)
    ensures r.debts == debts && r.extraPayment == extraPayment
    ensures r.snowball.payoffMethod == Snowball && r.avalanche.payoffMethod == Avalanche
    ensures r.snowball.monthsToPayoff <= MaxMonths && r.avalanche.monthsToPayoff <= MaxMonths
    ensures |r.snowball.debtPayments| == |debts| && |r.avalanche.debtPayments| == |debts|
    ensures forall i :: 0 <= i < |debts| ==>
      && r.snowball.debtPayments[i].debtId == SnowballOrder(debts)[i].id
      && r.avalanche.debtPayments[i].debtId == AvalancheOrder(debts)[i].id
    ensures forall i :: 0 <= i < |debts| ==>
      var s := SnowballOrder(debts);
      var a := AvalancheOrder(debts);
      && r.snowball.debtPayments[i].monthlyPayment == s[i].minimumPayment + (if s[i].id == s[0].id then extraPayment else 0.0)
      && r.avalanche.debtPayments[i].monthlyPayment == a[i].minimumPayment + (if a[i].id == a[0].id then extraPayment else 0.0)
    ensures r.snowball.totalInterestPaid == RoundCents(SumInterest(r.snowball.monthlyPayments))
    ensures r.avalanche.totalInterestPaid == RoundCents(SumInterest(r.avalanche.monthlyPayments))
  {
    CalculationResult(CalculateSnowball(debts, extraPayment), CalculateAvalanche(debts, extraPayment), debts, extraPayment)
  }

  /** No debts: both strategies take no month, pay no interest and list nothing. */
  lemma ComparisonOfNoDebts(extraPayment: real)
    ensures var r := CalculatePayoffComparison([], extraPayment);
      && r.snowball.monthsToPayoff == 0 && r.snowball.monthlyPayments == []
      && r.snowball.totalInterestPaid == 0.0 && r.snowball.debtPayments == []
      && r.avalanche.monthsToPayoff == 0 && r.avalanche.monthlyPayments == []
      && r.avalanche.totalInterestPaid == 0.0 && r.avalanche.debtPayments == []
  {
  }

  /** Some debt means at least one simulated month under either ordering. */
  lemma ComparisonOfSomeDebts(debts: seq<Debt>, extraPayment: real)
    requires |debts| > 0
    ensures var r := CalculatePayoffComparison(debts, extraPayment);
      r.snowball.monthsToPayoff >= 1 && r.avalanche.monthsToPayoff >= 1
  {
  }

  /**
   The method tag does not enter the arithmetic: when both orderings put
   the debts in the same order, the two strategies differ only in the tag.
   */
  lemma SameOrderSameSchedule(debts: seq<Debt>, extraPayment: real)
    requires SnowballOrder(debts) == AvalancheOrder(debts)
    ensures var r := CalculatePayoffComparison(debts, extraPayment);
      r.snowball.(payoffMethod := Avalanche) == r.avalanche
  {
  }

  /** Both strategies of a comparison over input that is not negative have sound ledgers. */
  lemma ComparisonSound(debts: seq<Debt>, extraPayment: real)
    requires ValidInput(debts, extraPayment)
    ensures var r := CalculatePayoffComparison(debts, extraPayment);
      && AllRowsSound(r.snowball.monthlyPayments) && r.snowball.totalInterestPaid >= 0.0
      && AllRowsSound(r.avalanche.monthlyPayments) && r.avalanche.totalInterestPaid >= 0.0
  {
    SortedInputValid(debts, extraPayment, SnowballOrder(debts));
    SortedInputValid(debts, extraPayment, AvalancheOrder(debts));
    PayoffStrategySound(SnowballOrder(debts), extraPayment, Snowball);
    PayoffStrategySound(AvalancheOrder(debts), extraPayment, Avalanche);
  }

  /**
   Month 1 of the snowball strategy has one row per debt, smallest balance
   first: the i-th row names the i-th debt of the snowball order.
   */
  lemma SnowballFirstMonth(debts: seq<Debt>, extraPayment: real)
    requires ValidInput(debts, extraPayment)
    ensures var r := CalculateSnowball(debts, extraPayment);
      var sorted := SnowballOrder(debts);
      && |r.monthlyPayments| >= |debts|
      && (forall i :: 0 <= i < |debts| ==>
            r.monthlyPayments[i].month == 1 && r.monthlyPayments[i].debtName == sorted[i].name)
      && (forall i, j :: 0 <= i < j < |debts| ==> sorted[i].balance <= sorted[j].balance)
  {
    SortedInputValid(debts, extraPayment, SnowballOrder(debts));
    FirstMonthRows(SnowballOrder(debts), extraPayment, Snowball);
  }

  /**
   Month 1 of the avalanche strategy has one row per debt, highest APR
   first: the i-th row names the i-th debt of the avalanche order.
   */
  lemma AvalancheFirstMonth(debts: seq<Debt>, extraPayment: real)
    requires ValidInput(debts, extraPayment)
    ensures var r := CalculateAvalanche(debts, extraPayment);
      var sorted := AvalancheOrder(debts);
      && |r.monthlyPayments| >= |debts|
      && (forall i :: 0 <= i < |debts| ==>
            r.monthlyPayments[i].month == 1 && r.monthlyPayments[i].debtName == sorted[i].name)
      && (forall i, j :: 0 <= i < j < |debts| ==> sorted[i].apr >= sorted[j].apr)
  {
    SortedInputValid(debts, extraPayment, AvalancheOrder(debts));
    FirstMonthRows(AvalancheOrder(debts), extraPayment, Avalanche);
  }

  /**
   The comparison runs each strategy over its own ordering: month 1 of the
   snowball ledger follows the snowball order and month 1 of the avalanche
   ledger the avalanche order, each row with one month of interest on its
   debt's full balance.
   */
  lemma ComparisonFirstMonth(debts: seq<Debt>, extraPayment: real)
    requires ValidInput(debts, extraPayment)
    ensures var r := CalculatePayoffComparison(debts, extraPayment);
      && |r.snowball.monthlyPayments| >= |debts| && |r.avalanche.monthlyPayments| >= |debts|
      && forall i :: 0 <= i < |debts| ==>
           var s := SnowballOrder(debts)[i];
           var a := AvalancheOrder(debts)[i];
           && r.snowball.monthlyPayments[i].month == 1 && r.snowball.monthlyPayments[i].debtName == s.name
           && r.snowball.monthlyPayments[i].interest == MonthlyInterest(s.balance, s.apr)
           && r.avalanche.monthlyPayments[i].month == 1 && r.avalanche.monthlyPayments[i].debtName == a.name
           && r.avalanche.monthlyPayments[i].interest == MonthlyInterest(a.balance, a.apr)
  {
    SortedInputValid(debts, extraPayment, SnowballOrder(debts));
    FirstMonthRows(SnowballOrder(debts), extraPayment, Snowball);
    SortedInputValid(debts, extraPayment, AvalancheOrder(debts));
    FirstMonthRows(AvalancheOrder(debts), extraPayment, Avalanche);
  }

  /** Reordering keeps the input valid. */
  lemma SortedInputValid(debts: seq<Debt>, extraPayment: real, sorted: seq<Debt>)
    requires ValidInput(debts, extraPayment)
    requires multiset(sorted) == multiset(debts)
    ensures ValidInput(sorted, extraPayment)
  {
    forall i | 0 <= i < |sorted|
      ensures NonNegative(sorted[i])
    {
      assert sorted[i] in multiset(debts);
      var j :| 0 <= j < |debts| && debts[j] == sorted[i];
    }
  }
}

=== FILE: scenarios.dfy ===
/**
 Worked months of the simulation on small inputs, showing how the pool of
 freed minimum payments behaves in lib/calculations/payoff.ts.
 */
module Scenarios {
  import opened Wrappers
  import opened DebtTypes
  import opened Simulation

  /**
   The amounts of the rollover scenario below: two interest-free debts, the
   first paid off exactly by its own minimum, the second large enough to
   stay open for two months.
   */
  predicate RolloverAmounts(card: Debt, loan: Debt) {
    && card.apr == 0.0 && loan.apr == 0.0
    && card.balance > 0.0 && card.minimumPayment == card.balance
    && loan.minimumPayment >= 0.0
    && loan.balance > 2.0 * loan.minimumPayment + card.minimumPayment
  }

  predicate RolloverPremises(card: Debt, loan: Debt) {
    RolloverAmounts(card, loan) && card.name != loan.name
  }

  /**
   Two interest-free debts, no extra payment. The first ("card") is paid
   off by its own minimum in month 1; that minimum joins month 1's pool and
   goes to the second debt ("loan") on top of the loan's own minimum.
   */
  lemma RolloverMonthOne(card: Debt, loan: Debt)
    requires RolloverPremises(card, loan)
    ensures var m1 := Step(Start([card, loan]), 0.0);
      && m1.debts == [WorkingDebt(card, 0.0, true),
                      WorkingDebt(loan, loan.balance - loan.minimumPayment - card.minimumPayment, false)]
      && |m1.ledger| == 2
      && m1.ledger[1].payment == loan.minimumPayment + card.minimumPayment
  {
    var w0 := WorkingDebt(card, card.balance, false);
    var w1 := WorkingDebt(loan, loan.balance, false);
    assert Start([card, loan]).debts == [w0, w1];
    FirstMonthPass(card, loan);
    var pass := MinimumPass([w0, w1], 1, 0.0);
    assert FirstOpen(pass.debts) == Some(1);
    assert FindRow(pass.rows, 1, loan.name) == Some(1);
  }

  /** The minimum pass of month 1: the card closes and frees its minimum; the loan pays its own. */
  lemma FirstMonthPass(card: Debt, loan: Debt)
    requires RolloverAmounts(card, loan)
    ensures var pass := MinimumPass([WorkingDebt(card, card.balance, false), WorkingDebt(loan, loan.balance, false)], 1, 0.0);
      && pass.debts == [WorkingDebt(card, 0.0, true), WorkingDebt(loan, loan.balance - loan.minimumPayment, false)]
      && |pass.rows| == 2
      && pass.rows[0].debtName == card.name && pass.rows[1].debtName == loan.name
      && pass.rows[1].payment == loan.minimumPayment
      && pass.rows[1].principal == loan.minimumPayment && pass.rows[1].interest == 0.0
      && pass.pool == card.minimumPayment
  {
    var w0 := WorkingDebt(card, card.balance, false);
    var w1 := WorkingDebt(loan, loan.balance, false);
    InterestFreeCharge(w0, 1);
    InterestFreeCharge(w1, 1);
    var c0 := ChargeMinimum(w0, 1);
    var c1 := ChargeMinimum(w1, 1);
    assert c0.debt == WorkingDebt(card, 0.0, true);
    assert [w0, w1][1..] == [w1];
    assert [w1][1..] == [];
    assert MinimumPass([], 1, card.minimumPayment) == Pass([], [], 0.0, card.minimumPayment);
    var tail := MinimumPass([w1], 1, card.minimumPayment);
    assert tail == Pass([c1.debt], [c1.row], c1.row.interest, card.minimumPayment);
    var pass := MinimumPass([w0, w1], 1, 0.0);
    assert pass == Pass([c0.debt] + tail.debts, [c0.row] + tail.rows, c0.row.interest + tail.interest, tail.pool);
  }

  /**
   The same month when both debts carry the same name. The ledger edit looks
   the row up by month and name, so the freed minimum lands on the card's row,
   whose debt is already closed, while the loan's balance falls by it and the
   loan's row shows only its own minimum and a stale balance.
   */
  lemma SharedNameMisdirectsExtra(card: Debt, loan: Debt)
    requires RolloverAmounts(card, loan) && card.name == loan.name
    ensures var m1 := Step(Start([card, loan]), 0.0);
      && m1.debts[1].currentBalance == loan.balance - loan.minimumPayment - card.minimumPayment
      && |m1.ledger| == 2
      && m1.ledger[0].payment == 2.0 * card.minimumPayment
      && m1.ledger[0].remainingBalance == m1.debts[1].currentBalance
      && m1.ledger[1].payment == loan.minimumPayment
      && m1.ledger[1].remainingBalance == loan.balance - loan.minimumPayment
  {
    var w0 := WorkingDebt(card, card.balance, false);
    var w1 := WorkingDebt(loan, loan.balance, false);
    assert Start([card, loan]).debts == [w0, w1];
    FirstMonthPass(card, loan);
    var pass := MinimumPass([w0, w1], 1, 0.0);
    InterestFreeCharge(w0, 1);
    assert pass.rows[0] == ChargeMinimum(w0, 1).row;
    assert FirstOpen(pass.debts) == Some(1);
    assert FindRow(pass.rows, 1, loan.name) == Some(0);
  }

  /** The minimum pass over two open debts: each is charged in turn, and a debt it closes adds its minimum to the pool. */
  lemma PassOfTwo(w0: WorkingDebt, w1: WorkingDebt, month: nat, pool: real)
    requires !w0.isPaidOff && !w1.isPaidOff
    ensures var c0 := ChargeMinimum(w0, month);
      var c1 := ChargeMinimum(w1, month);
      var p1 := if c0.debt.isPaidOff then pool + w0.debt.minimumPayment else pool;
      var p2 := if c1.debt.isPaidOff then p1 + w1.debt.minimumPayment else p1;
      MinimumPass([w0, w1], month, pool) == Pass([c0.debt, c1.debt], [c0.row, c1.row], c0.row.interest + c1.row.interest, p2)
  {
    var c0 := ChargeMinimum(w0, month);
    var c1 := ChargeMinimum(w1, month);
    var p1 := if c0.debt.isPaidOff then pool + w0.debt.minimumPayment else pool;
    var p2 := if c1.debt.isPaidOff then p1 + w1.debt.minimumPayment else p1;
    assert [w0, w1][1..] == [w1];
    assert [w1][1..] == [];
    assert MinimumPass([], month, p2) == Pass([], [], 0.0, p2);
    var tail := MinimumPass([w1], month, p1);
    assert tail == Pass([c1.debt], [c1.row], c1.row.interest + 0.0, p2);
    assert MinimumPass([w0, w1], month, pool) == Pass([c0.debt] + tail.debts, [c0.row] + tail.rows, c0.row.interest + tail.interest, p2);
  }

  /**
   Two interest-free debts: the first is paid off by its own minimum, and
   the second's balance left after its minimum is positive but no more than
   the first's freed minimum, so month 1's extra payment clears it.
   */
  predicate ClearingAmounts(card: Debt, loan: Debt) {
    && card.apr == 0.0 && loan.apr == 0.0
    && card.balance > 0.0 && card.minimumPayment == card.balance
    && loan.minimumPayment >= 0.0
    && loan.minimumPayment < loan.balance <= loan.minimumPayment + card.minimumPayment
  }

  /**
   Month 1 of two such debts under one name, with no extra payment: both
   are paid off, but the freed minimum that clears the second is written
   onto the first row carrying the name, so the second debt's row keeps the
   balance left after its own minimum.
   */
  lemma SharedNameMonthOne(card: Debt, loan: Debt)
    requires ClearingAmounts(card, loan) && card.name == loan.name
    ensures var m1 := Step(Start([card, loan]), 0.0);
      && AllPaidOff(m1.debts)
      && |m1.ledger| == 2
      && m1.ledger[0].payment == card.minimumPayment + loan.balance - loan.minimumPayment
      && m1.ledger[1].debtName == loan.name
      && m1.ledger[1].remainingBalance == loan.balance - loan.minimumPayment
  {
    var w0 := WorkingDebt(card, card.balance, false);
    var w1 := WorkingDebt(loan, loan.balance, false);
    assert Start([card, loan]).debts == [w0, w1];
    PassOfTwo(w0, w1, 1, 0.0);
    InterestFreeCharge(w0, 1);
    InterestFreeCharge(w1, 1);
    var pass := MinimumPass([w0, w1], 1, 0.0);
    assert FirstOpen(pass.debts) == Some(1);
    assert FindRow(pass.rows, 1, loan.name) == Some(0);
  }

  /**
   The whole run of two such debts stops after month 1 with both paid off,
   yet the last row carrying their name shows a positive balance.
   */
  lemma SharedNameLeavesStaleBalance(card: Debt, loan: Debt)
    requires ClearingAmounts(card, loan) && card.name == loan.name
    ensures var r := CalculatePayoffStrategy([card, loan], 0.0, Snowball);
      && r.monthsToPayoff == 1
      && |r.monthlyPayments| == 2
      && LastRow(r.monthlyPayments, loan.name) == Some(1)
      && r.monthlyPayments[1].remainingBalance == loan.balance - loan.minimumPayment > 0.0
  {
    var st := Start([card, loan]);
    SharedNameMonthOne(card, loan);
    var m1 := Step(st, 0.0);
    assert !st.debts[0].isPaidOff;
    assert Simulate(st, 0.0) == m1;
    var r := CalculatePayoffStrategy([card, loan], 0.0, Snowball);
    assert r.monthlyPayments == m1.ledger && r.monthsToPayoff == 1;
  }

  /**
   Month 2 of the same scenario: the pool starts again from the extra
   payment, zero, so the loan receives only its own minimum. The card's
   freed minimum has not rolled over.
   */
  lemma RolloverMonthTwo(card: Debt, loan: Debt)
    requires RolloverPremises(card, loan)
    ensures var m1 := Step(Start([card, loan]), 0.0);
      var m2 := Step(m1, 0.0);
      && m2.debts[1].currentBalance == loan.balance - 2.0 * loan.minimumPayment - card.minimumPayment
      && |m2.ledger| == 3
      && m2.ledger[2].payment == loan.minimumPayment
  {
    RolloverMonthOne(card, loan);
    SecondMonth(card, loan, Step(Start([card, loan]), 0.0));
  }

  lemma SecondMonth(card: Debt, loan: Debt, m1: State)
    requires RolloverPremises(card, loan)
    requires m1.month == 1 && |m1.ledger| == 2
    requires m1.debts == [WorkingDebt(card, 0.0, true),
                          WorkingDebt(loan, loan.balance - loan.minimumPayment - card.minimumPayment, false)]
    ensures var m2 := Step(m1, 0.0);
      && m2.debts[1].currentBalance == loan.balance - 2.0 * loan.minimumPayment - card.minimumPayment
      && |m2.ledger| == 3
      && m2.ledger[2].payment == loan.minimumPayment
  {
    var v0 := m1.debts[0];
    var v1 := m1.debts[1];
    InterestFreeCharge(v1, 2);
    var d1 := ChargeMinimum(v1, 2);
    assert [v0, v1][1..] == [v1];
    assert [v1][1..] == [];
    assert MinimumPass([], 2, 0.0) == Pass([], [], 0.0, 0.0);
    var tail := MinimumPass([v1], 2, 0.0);
    assert tail == Pass([d1.debt], [d1.row], d1.row.interest, 0.0);
    var pass := MinimumPass([v0, v1], 2, 0.0);
    assert pass == Pass([v0] + tail.debts, tail.rows, tail.interest, tail.pool);
    var books := ApplyExtra(pass.debts, m1.ledger + pass.rows, 2, 0.0);
    assert books == Books(pass.debts, m1.ledger + pass.rows);
  }

  /**
   Month 1 of two debts, 1000 at 20 % with minimum 50 and 3000 at 12 % with
   minimum 90, and an extra payment of 100: interest is 1000 * 20 / 1200 =
   50/3 and 3000 * 12 / 1200 = 30, and the extra 100 goes to the first debt.
   */
  lemma FirstMonthOfTwoDebts()
    ensures var a := Debt("a", "A", 1000.0, 50.0, 20.0);
      var b := Debt("b", "B", 3000.0, 90.0, 12.0);
      var m1 := Step(Start([a, b]), 100.0);
      && |m1.ledger| == 2
      && m1.ledger[0].interest == 50.0 / 3.0 && m1.ledger[0].payment == 150.0
      && m1.ledger[1].interest == 30.0 && m1.ledger[1].payment == 90.0
      && m1.debts[0].currentBalance == 2600.0 / 3.0
      && m1.debts[1].currentBalance == 2940.0
      && m1.totalInterest == 50.0 / 3.0 + 30.0
  {
  }
}

=== FILE: simulation.dfy ===
/**
 The month-by-month payoff simulation (calculatePayoffStrategy in
 lib/calculations/payoff.ts). The source mutates working copies of the debts
 and edits ledger rows in place; here each month is one pure step from a
 `State` to the next, iterated until every debt is paid off or the 600-month
 safety limit is reached.
 */
module Simulation {
  import opened Wrappers
  import opened DebtTypes
  import opened Money

  /** The hard-coded safety limit of the simulation loop. */
  const MaxMonths: nat := 600

  /** The source's working copy of a debt: the debt plus `currentBalance` and `isPaidOff`. */
  datatype WorkingDebt = WorkingDebt(debt: Debt, currentBalance: real, isPaidOff: bool)

  /** The loop variables of the simulation: working debts, ledger, running interest and month counter. */
  datatype State = State(debts: seq<WorkingDebt>, ledger: seq<MonthlyPayment>, totalInterest: real, month: nat)

  /** The effect of paying the minimum on one debt: its new working copy and the ledger row pushed for it. */
  datatype Charge = Charge(debt: WorkingDebt, row: MonthlyPayment)

  /** The outcome of the minimum-payment pass over all debts in one month. */
  datatype Pass = Pass(debts: seq<WorkingDebt>, rows: seq<MonthlyPayment>, interest: real, pool: real)

  /** Working debts and ledger after the extra payment of one month. */
  datatype Books = Books(debts: seq<WorkingDebt>, ledger: seq<MonthlyPayment>)

  // ---------------------------------------------------------------------------
  // Invariants

  /** A working debt whose amounts are not negative, and which is at zero once paid off. */
  predicate Healthy(w: WorkingDebt) {
    NonNegative(w.debt) && w.currentBalance >= 0.0 && (w.isPaidOff ==> w.currentBalance == 0.0)
  }

  predicate AllHealthy(ws: seq<WorkingDebt>) {
    forall i :: 0 <= i < |ws| ==> Healthy(ws[i])
  }

  /** A ledger row whose payment is exactly principal plus interest, with no negative amount except possibly the principal. */
  predicate RowSound(row: MonthlyPayment) {
    && row.payment == row.principal + row.interest
    && row.payment >= 0.0
    && row.interest >= 0.0
    && row.remainingBalance >= 0.0
  }

  predicate AllRowsSound(rows: seq<MonthlyPayment>) {
    forall k :: 0 <= k < |rows| ==> RowSound(rows[k])
  }

  predicate AllPaidOff(ws: seq<WorkingDebt>) {
    forall i :: 0 <= i < |ws| ==> ws[i].isPaidOff
  }

  /** After the first month every debt still open has a positive balance, so "paid off" and "at zero" coincide. */
  predicate OpenDebtsPositive(ws: seq<WorkingDebt>) {
    forall i :: 0 <= i < |ws| && !ws[i].isPaidOff ==> ws[i].currentBalance > 0.0
  }

  /** No two debts share a name. */
  predicate DistinctNames(ws: seq<WorkingDebt>) {
    forall i, j :: 0 <= i < j < |ws| ==> ws[i].debt.name != ws[j].debt.name
  }

  /** What holds of the loop variables at the top of every iteration when the input is not negative. */
  predicate Consistent(st: State, extraPayment: real) {
    && extraPayment >= 0.0
    && st.month <= MaxMonths
    && AllHealthy(st.debts)
    && (st.month > 0 ==> OpenDebtsPositive(st.debts))
    && st.totalInterest >= 0.0
    && AllRowsSound(st.ledger)
    && forall k :: 0 <= k < |st.ledger| ==> 1 <= st.ledger[k].month <= st.month
  }

  // ---------------------------------------------------------------------------
  // Views used by the contracts

  /** The names of the debts not yet paid off, in order. */
  function OpenNames(ws: seq<WorkingDebt>): seq<string>
  {
    if |ws| == 0 then []
    else (if ws[0].isPaidOff then [] else [ws[0].debt.name]) + OpenNames(ws[1..])
  }

  function RowNames(rows: seq<MonthlyPayment>): seq<string>
  {
    seq(|rows|, k requires 0 <= k < |rows| => rows[k].debtName)
  }

  lemma RowNamesAppend(a: seq<MonthlyPayment>, b: seq<MonthlyPayment>)
    ensures RowNames(a + b) == RowNames(a) + RowNames(b)
  {
    assert forall k :: 0 <= k < |b| ==> (a + b)[|a| + k] == b[k];
  }

  /** The position of the last row carrying `name`, or `None` when no row does. */
  function LastRow(rows: seq<MonthlyPayment>, name: string): (r: Option<nat>)
    ensures r.None? <==> forall k :: 0 <= k < |rows| ==> rows[k].debtName != name
    ensures r.Some? ==> r.value < |rows| && rows[r.value].debtName == name
    ensures r.Some? ==> forall k :: r.value < k < |rows| ==> rows[k].debtName != name
    decreases |rows|
  {
    if |rows| == 0 then None
    else if rows[|rows| - 1].debtName == name then Some(|rows| - 1)
    else LastRow(rows[..|rows| - 1], name)
  }

  /** A row carrying `name` with none after it is the last one. */
  lemma LastRowAt(rows: seq<MonthlyPayment>, name: string, p: nat)
    requires p < |rows| && rows[p].debtName == name
    requires forall k :: p < k < |rows| ==> rows[k].debtName != name
    ensures LastRow(rows, name) == Some(p)
  {
  }

  /** The positions of the debts not yet paid off, in order. */
  function OpenIndices(ws: seq<WorkingDebt>): (r: seq<nat>)
    ensures forall k :: 0 <= k < |r| ==> r[k] < |ws| && !ws[r[k]].isPaidOff
  {
    if |ws| == 0 then []
    else
      var rest := OpenIndices(ws[1..]);
      (if ws[0].isPaidOff then [] else [0]) + Shift(rest)
  }

  /** Every index of `s` moved up by one. */
  function Shift(s: seq<nat>): (r: seq<nat>)
    ensures |r| == |s| && forall k :: 0 <= k < |s| ==> r[k] == s[k] + 1
  {
    seq(|s|, k requires 0 <= k < |s| => s[k] + 1)
  }

  lemma OpenIndicesCons(ws: seq<WorkingDebt>)
    requires |ws| > 0
    ensures OpenIndices(ws) == (if ws[0].isPaidOff then [] else [0]) + Shift(OpenIndices(ws[1..]))
  {
  }

  /** The positions are listed in increasing order, so each open debt appears once. */
  lemma {:induction false} OpenIndicesIncreasing(ws: seq<WorkingDebt>)
    ensures forall k, l :: 0 <= k < l < |OpenIndices(ws)| ==> OpenIndices(ws)[k] < OpenIndices(ws)[l]
    decreases |ws|
  {
    if |ws| > 0 {
      var rest := OpenIndices(ws[1..]);
      OpenIndicesIncreasing(ws[1..]);
      OpenIndicesCons(ws);
      var shifted := Shift(rest);
      assert forall k, l :: 0 <= k < l < |shifted| ==> shifted[k] < shifted[l];
    }
  }

  /** Every open debt is listed: `k` is its place among the open debts. */
  lemma {:induction false} OpenIndicesComplete(ws: seq<WorkingDebt>, i: nat) returns (k: nat)
    requires i < |ws| && !ws[i].isPaidOff
    ensures k < |OpenIndices(ws)| && OpenIndices(ws)[k] == i
    decreases |ws|
  {
    var lead: seq<nat> := if ws[0].isPaidOff then [] else [0];
    var rest := OpenIndices(ws[1..]);
    assert OpenIndices(ws) == lead + Shift(rest);
    if i == 0 {
      k := 0;
    } else {
      assert ws[1..][i - 1] == ws[i];
      var j := OpenIndicesComplete(ws[1..], i - 1);
      k := |lead| + j;
      assert Shift(rest)[j] == i;
    }
  }

  /** When no debt is paid off, the open positions are all the positions. */
  lemma {:induction false} AllOpenIndices(ws: seq<WorkingDebt>)
    requires forall i :: 0 <= i < |ws| ==> !ws[i].isPaidOff
    ensures |OpenIndices(ws)| == |ws|
    ensures forall k :: 0 <= k < |ws| ==> OpenIndices(ws)[k] == k
    decreases |ws|
  {
    if |ws| > 0 {
      AllOpenIndices(ws[1..]);
      OpenIndicesCons(ws);
    }
  }

  /** The interest recorded in a list of ledger rows. */
  function SumInterest(rows: seq<MonthlyPayment>): real
  {
    if |rows| == 0 then 0.0 else rows[0].interest + SumInterest(rows[1..])
  }

  lemma {:induction false} SumInterestAppend(a: seq<MonthlyPayment>, b: seq<MonthlyPayment>)
    ensures SumInterest(a + b) == SumInterest(a) + SumInterest(b)
    decreases |a|
  {
    if |a| == 0 {
      assert a + b == b;
    } else {
      assert (a + b)[1..] == a[1..] + b;
      SumInterestAppend(a[1..], b);
    }
  }

  /** Rows that carry the same interest, position by position, sum to the same interest. */
  lemma {:induction false} SumInterestOfSameInterests(a: seq<MonthlyPayment>, b: seq<MonthlyPayment>)
    requires |a| == |b|
    requires forall k :: 0 <= k < |a| ==> a[k].interest == b[k].interest
    ensures SumInterest(a) == SumInterest(b)
    decreases |a|
  {
    if |a| > 0 {
      SumInterestOfSameInterests(a[1..], b[1..]);
    }
  }

  /** The minimum payments of the debts that went from open (in `before`) to paid off (in `after`). */
  function Freed(before: seq<WorkingDebt>, after: seq<WorkingDebt>): real
    requires |before| == |after|
  {
    if |before| == 0 then 0.0
    else
      (if !before[0].isPaidOff && after[0].isPaidOff then before[0].debt.minimumPayment else 0.0)
      + Freed(before[1..], after[1..])
  }

  // ---------------------------------------------------------------------------
  // One month

  /** Interest for one month at `apr` percent a year: `balance * (apr / 100 / 12)`. */
  function MonthlyInterest(balance: real, apr: real): (r: real)
    ensures r * 1200.0 == balance * apr
    ensures balance >= 0.0 && apr >= 0.0 ==> r >= 0.0
  {
    balance * (apr / 100.0 / 12.0)
  }

  /**
   Pays this month's minimum on one open debt. The payment is capped at the
   balance plus interest, so a minimum alone never overpays; when the
   minimum does not cover the interest the principal is negative and the
   balance grows.
   */
  function ChargeMinimum(w: WorkingDebt, month: nat): (c: Charge)
    ensures c.debt.debt == w.debt
    ensures c.row.month == month && c.row.debtName == w.debt.name
    ensures c.row.interest == MonthlyInterest(w.currentBalance, w.debt.apr)
    ensures c.row.payment <= w.debt.minimumPayment
    ensures c.row.payment <= w.currentBalance + c.row.interest
    ensures c.row.payment == w.debt.minimumPayment || c.row.payment == w.currentBalance + c.row.interest
    ensures c.row.payment == c.row.principal + c.row.interest
    ensures c.debt.currentBalance == w.currentBalance - c.row.principal
    ensures c.row.remainingBalance == Max(0.0, c.debt.currentBalance)
    ensures c.debt.isPaidOff <==> c.debt.currentBalance <= 0.0
    ensures NonNegative(w.debt) && w.currentBalance >= 0.0 ==>
      && Healthy(c.debt)
      && RowSound(c.row)
      && c.row.remainingBalance == c.debt.currentBalance
  {
    var interest := MonthlyInterest(w.currentBalance, w.debt.apr);
    var payment := Min(w.debt.minimumPayment, w.currentBalance + interest);
    var principal := payment - interest;
    var balance := w.currentBalance - principal;
    Charge(
      WorkingDebt(w.debt, balance, balance <= 0.0),
      MonthlyPayment(month, w.debt.name, payment, principal, interest, Max(0.0, balance)))
  }

  /**
   A debt whose balance is zero still gets a row when it is charged: an
   all-zero row, after which it is paid off.
   */
  lemma ZeroBalanceCharge(w: WorkingDebt, month: nat)
    requires NonNegative(w.debt) && w.currentBalance == 0.0
    ensures var c := ChargeMinimum(w, month);
      && c.row.payment == 0.0 && c.row.principal == 0.0 && c.row.interest == 0.0
      && c.row.remainingBalance == 0.0
      && c.debt.isPaidOff && c.debt.currentBalance == 0.0
  {
  }

  /** Without interest, the minimum, capped at the balance, comes straight off the balance. */
  lemma InterestFreeCharge(w: WorkingDebt, month: nat)
    requires w.debt.apr == 0.0
    ensures var c := ChargeMinimum(w, month);
      && c.row.interest == 0.0
      && c.row.payment == Min(w.debt.minimumPayment, w.currentBalance)
      && c.debt.currentBalance == w.currentBalance - c.row.payment
  {
    assert MonthlyInterest(w.currentBalance, 0.0) == 0.0;
  }

  /**
   The minimum-payment pass of one month, in sorted order, skipping debts
   already paid off. `pool` is the extra-payment pool: each debt paid off in
   this pass adds its minimum payment to it.
   */
  function MinimumPass(ws: seq<WorkingDebt>, month: nat, pool: real): (r: Pass)
    ensures |r.debts| == |ws|
    ensures forall i :: 0 <= i < |ws| && ws[i].isPaidOff ==> r.debts[i] == ws[i]
    ensures forall i :: 0 <= i < |ws| ==> r.debts[i].debt == ws[i].debt
    ensures forall k :: 0 <= k < |r.rows| ==> r.rows[k].month == month
    decreases |ws|
  {
    if |ws| == 0 then Pass([], [], 0.0, pool)
    else if ws[0].isPaidOff then
      var rest := MinimumPass(ws[1..], month, pool);
      Pass([ws[0]] + rest.debts, rest.rows, rest.interest, rest.pool)
    else
      var c := ChargeMinimum(ws[0], month);
      var pool' := if c.debt.isPaidOff then pool + ws[0].debt.minimumPayment else pool;
      var rest := MinimumPass(ws[1..], month, pool');
      Pass([c.debt] + rest.debts, [c.row] + rest.rows, c.row.interest + rest.interest, rest.pool)
  }

  /** Every debt open at the start of the pass is charged its minimum. */
  lemma {:induction false} MinimumPassCharges(ws: seq<WorkingDebt>, month: nat, pool: real)
    ensures var r := MinimumPass(ws, month, pool);
      forall i :: 0 <= i < |ws| && !ws[i].isPaidOff ==> r.debts[i] == ChargeMinimum(ws[i], month).debt
    decreases |ws|
  {
    if |ws| > 0 {
      var pool' := if !ws[0].isPaidOff && ChargeMinimum(ws[0], month).debt.isPaidOff
                   then pool + ws[0].debt.minimumPayment else pool;
      MinimumPassCharges(ws[1..], month, pool');
      var r := MinimumPass(ws, month, pool);
      assert r.debts[1..] == MinimumPass(ws[1..], month, pool').debts;
      forall i | 1 <= i < |ws| && !ws[i].isPaidOff
        ensures r.debts[i] == ChargeMinimum(ws[i], month).debt
      {
        assert ws[i] == ws[1..][i - 1];
      }
    }
  }

  /** `rows` are the charge rows of the open debts of `ws`, in order. */
  predicate ChargeRows(ws: seq<WorkingDebt>, month: nat, rows: seq<MonthlyPayment>)
  {
    && |rows| == |OpenIndices(ws)|
    && forall k :: 0 <= k < |rows| ==> rows[k] == ChargeMinimum(ws[OpenIndices(ws)[k]], month).row
  }

  /** A paid-off debt in front adds no row. */
  lemma ChargeRowsSkip(ws: seq<WorkingDebt>, month: nat, rows: seq<MonthlyPayment>)
    requires |ws| > 0 && ws[0].isPaidOff && ChargeRows(ws[1..], month, rows)
    ensures ChargeRows(ws, month, rows)
  {
    var later := OpenIndices(ws[1..]);
    var open := OpenIndices(ws);
    assert open == Shift(later) by {
      OpenIndicesCons(ws);
    }
    forall k | 0 <= k < |rows|
      ensures rows[k] == ChargeMinimum(ws[open[k]], month).row
    {
      assert ws[open[k]] == ws[1..][later[k]];
    }
  }

  /** An open debt in front adds its own charge row in front. */
  lemma ChargeRowsPush(ws: seq<WorkingDebt>, month: nat, rows: seq<MonthlyPayment>)
    requires |ws| > 0 && !ws[0].isPaidOff && ChargeRows(ws[1..], month, rows)
    ensures ChargeRows(ws, month, [ChargeMinimum(ws[0], month).row] + rows)
  {
    var later := OpenIndices(ws[1..]);
    var open := OpenIndices(ws);
    var all := [ChargeMinimum(ws[0], month).row] + rows;
    assert open == [0] + Shift(later) by {
      OpenIndicesCons(ws);
    }
    forall k | 1 <= k < |all|
      ensures all[k] == ChargeMinimum(ws[open[k]], month).row
    {
      assert all[k] == rows[k - 1];
      assert ws[open[k]] == ws[1..][later[k - 1]];
    }
  }

  /** The k-th row the pass pushes is the charge row of the k-th open debt. */
  lemma {:induction false} MinimumPassChargeRows(ws: seq<WorkingDebt>, month: nat, pool: real)
    ensures ChargeRows(ws, month, MinimumPass(ws, month, pool).rows)
    decreases |ws|
  {
    if |ws| > 0 {
      var pool' := if !ws[0].isPaidOff && ChargeMinimum(ws[0], month).debt.isPaidOff
                   then pool + ws[0].debt.minimumPayment else pool;
      var rest := MinimumPass(ws[1..], month, pool');
      MinimumPassChargeRows(ws[1..], month, pool');
      if ws[0].isPaidOff {
        ChargeRowsSkip(ws, month, rest.rows);
      } else {
        ChargeRowsPush(ws, month, rest.rows);
      }
    }
  }

  /** The interest of a pass is the interest recorded in the rows it pushes. */
  lemma {:induction false} MinimumPassInterest(ws: seq<WorkingDebt>, month: nat, pool: real)
    ensures MinimumPass(ws, month, pool).interest == SumInterest(MinimumPass(ws, month, pool).rows)
    decreases |ws|
  {
    if |ws| > 0 {
      var pool' := if !ws[0].isPaidOff && ChargeMinimum(ws[0], month).debt.isPaidOff
                   then pool + ws[0].debt.minimumPayment else pool;
      MinimumPassInterest(ws[1..], month, pool');
      var r := MinimumPass(ws, month, pool);
      var rest := MinimumPass(ws[1..], month, pool');
      if !ws[0].isPaidOff {
        assert r.rows[1..] == rest.rows;
      }
    }
  }

  /** The pass pushes exactly one row per open debt, in sorted order; paid-off debts get none. */
  lemma {:induction false} MinimumPassRows(ws: seq<WorkingDebt>, month: nat, pool: real)
    ensures RowNames(MinimumPass(ws, month, pool).rows) == OpenNames(ws)
    decreases |ws|
  {
    if |ws| > 0 {
      var r := MinimumPass(ws, month, pool);
      var pool' := if !ws[0].isPaidOff && ChargeMinimum(ws[0], month).debt.isPaidOff
                   then pool + ws[0].debt.minimumPayment else pool;
      var rest := MinimumPass(ws[1..], month, pool');
      MinimumPassRows(ws[1..], month, pool');
      if ws[0].isPaidOff {
        assert r.rows == rest.rows;
      } else {
        assert r.rows == [ChargeMinimum(ws[0], month).row] + rest.rows;
        assert RowNames(r.rows) == [ws[0].debt.name] + RowNames(rest.rows);
      }
    }
  }

  /**
   Rollover: the pool leaves the pass increased by exactly the minimum
   payments of the debts this pass paid off.
   */
  lemma {:induction false} MinimumPassPool(ws: seq<WorkingDebt>, month: nat, pool: real)
    ensures MinimumPass(ws, month, pool).pool == pool + Freed(ws, MinimumPass(ws, month, pool).debts)
    decreases |ws|
  {
    if |ws| > 0 {
      var r := MinimumPass(ws, month, pool);
      var pool' := if !ws[0].isPaidOff && ChargeMinimum(ws[0], month).debt.isPaidOff
                   then pool + ws[0].debt.minimumPayment else pool;
      MinimumPassPool(ws[1..], month, pool');
      assert r.debts[1..] == MinimumPass(ws[1..], month, pool').debts;
    }
  }

  /** With amounts that are not negative, the pass keeps every debt healthy and every row sound. */
  lemma {:induction false} MinimumPassHealthy(ws: seq<WorkingDebt>, month: nat, pool: real)
    requires AllHealthy(ws)
    ensures var r := MinimumPass(ws, month, pool);
      && AllHealthy(r.debts)
      && OpenDebtsPositive(r.debts)
      && AllRowsSound(r.rows)
      && r.interest >= 0.0
      && Freed(ws, r.debts) >= 0.0
    decreases |ws|
  {
    if |ws| > 0 {
      var r := MinimumPass(ws, month, pool);
      var pool' := if !ws[0].isPaidOff && ChargeMinimum(ws[0], month).debt.isPaidOff
                   then pool + ws[0].debt.minimumPayment else pool;
      var rest := MinimumPass(ws[1..], month, pool');
      MinimumPassHealthy(ws[1..], month, pool');
      assert r.debts[1..] == rest.debts;
      if ws[0].isPaidOff {
        assert r.rows == rest.rows;
      } else {
        var c := ChargeMinimum(ws[0], month);
        assert r.rows == [c.row] + rest.rows;
      }
    }
  }

  /** `workingDebts.find(debt => !debt.isPaidOff)`, as an index. */
  function FirstOpen(ws: seq<WorkingDebt>): (r: Option<nat>)
    ensures r.None? <==> AllPaidOff(ws)
    ensures r.Some? ==> r.value < |ws| && !ws[r.value].isPaidOff
    ensures r.Some? ==> forall j :: 0 <= j < r.value ==> ws[j].isPaidOff
  {
    if |ws| == 0 then None
    else if !ws[0].isPaidOff then Some(0)
    else
      match FirstOpen(ws[1..])
      case None => None
      case Some(i) => Some(i + 1)
  }

  /** `monthlyPayments.find(p => p.month === month && p.debtName === name)`, as an index. */
  function FindRow(ledger: seq<MonthlyPayment>, month: nat, name: string): (r: Option<nat>)
    ensures r.None? ==> forall k :: 0 <= k < |ledger| ==> !(ledger[k].month == month && ledger[k].debtName == name)
    ensures r.Some? ==> r.value < |ledger| && ledger[r.value].month == month && ledger[r.value].debtName == name
    ensures r.Some? ==> forall k :: 0 <= k < r.value ==> !(ledger[k].month == month && ledger[k].debtName == name)
  {
    if |ledger| == 0 then None
    else if ledger[0].month == month && ledger[0].debtName == name then Some(0)
    else
      match FindRow(ledger[1..], month, name)
      case None => None
      case Some(k) => Some(k + 1)
  }

  /**
   The extra payment of one month: when the pool is positive, the first open
   debt in sorted order receives `min(pool, currentBalance)`, and the first
   ledger row of this month carrying that debt's name is increased by it.
   A debt paid off here does not return its minimum to any pool.
   */
  function ApplyExtra(ws: seq<WorkingDebt>, ledger: seq<MonthlyPayment>, month: nat, pool: real): (r: Books)
    ensures |r.debts| == |ws| && |r.ledger| == |ledger|
    ensures forall j :: 0 <= j < |ws| ==> r.debts[j].debt == ws[j].debt
    ensures forall j :: 0 <= j < |ws| && ws[j].isPaidOff ==> r.debts[j] == ws[j]
  {
    if pool > 0.0 then
      match FirstOpen(ws)
      case None => Books(ws, ledger)
      case Some(t) =>
        var target := ws[t];
        var amount := Min(pool, target.currentBalance);
        var balance := target.currentBalance - amount;
        var ledger' :=
          match FindRow(ledger, month, target.debt.name)
          case None => ledger
          case Some(k) =>
            ledger[k := ledger[k].(payment := ledger[k].payment + amount,
                                   principal := ledger[k].principal + amount,
                                   remainingBalance := Max(0.0, balance))];
        Books(ws[t := WorkingDebt(target.debt, balance, balance <= 0.0)], ledger')
    else
      Books(ws, ledger)
  }

  /**
   Nothing happens when the pool is empty or every debt is paid off;
   otherwise only the first open debt changes, by `min(pool, balance)`, and
   it is marked paid off exactly when that brings it to zero or below.
   */
  lemma ExtraPaysFirstOpen(ws: seq<WorkingDebt>, ledger: seq<MonthlyPayment>, month: nat, pool: real)
    ensures var r := ApplyExtra(ws, ledger, month, pool);
      && (pool <= 0.0 || AllPaidOff(ws) ==> r == Books(ws, ledger))
      && (pool > 0.0 && !AllPaidOff(ws) ==>
            var t := FirstOpen(ws).value;
            && r.debts[t].debt == ws[t].debt
            && r.debts[t].currentBalance == ws[t].currentBalance - Min(pool, ws[t].currentBalance)
            && (r.debts[t].isPaidOff <==> r.debts[t].currentBalance <= 0.0)
            && (forall j :: 0 <= j < |ws| && j != t ==> r.debts[j] == ws[j]))
  {
  }

  /**
   The extra payment edits at most one ledger row, one dated this month, and
   keeps its month and name; payment and principal grow by the same amount,
   so a row that was sound stays sound.
   */
  lemma ExtraKeepsRows(ws: seq<WorkingDebt>, ledger: seq<MonthlyPayment>, month: nat, pool: real)
    ensures var r := ApplyExtra(ws, ledger, month, pool);
      && (forall k :: 0 <= k < |ledger| ==>
            r.ledger[k].month == ledger[k].month && r.ledger[k].debtName == ledger[k].debtName)
      && (forall k :: 0 <= k < |ledger| && ledger[k].month != month ==> r.ledger[k] == ledger[k])
      && RowNames(r.ledger) == RowNames(ledger)
      && (pool >= 0.0 && AllHealthy(ws) && AllRowsSound(ledger) ==> AllRowsSound(r.ledger))
  {
    var r := ApplyExtra(ws, ledger, month, pool);
    assert RowNames(r.ledger) == RowNames(ledger);
  }

  /**
   The row the extra payment edits: the first row of this month carrying the
   target debt's name gains the amount on payment and principal and records
   the target's new balance, clamped at zero; no other row changes. With no
   such row the ledger is unchanged.
   */
  lemma ExtraEditsTargetRow(ws: seq<WorkingDebt>, ledger: seq<MonthlyPayment>, month: nat, pool: real)
    ensures var r := ApplyExtra(ws, ledger, month, pool);
      && (pool <= 0.0 || AllPaidOff(ws) ==> r.ledger == ledger)
      && (pool > 0.0 && !AllPaidOff(ws) ==>
            var t := FirstOpen(ws).value;
            var amount := Min(pool, ws[t].currentBalance);
            match FindRow(ledger, month, ws[t].debt.name)
            case None => r.ledger == ledger
            case Some(k) =>
              && (forall j :: 0 <= j < |ledger| && j != k ==> r.ledger[j] == ledger[j])
              && r.ledger[k].month == ledger[k].month
              && r.ledger[k].debtName == ledger[k].debtName
              && r.ledger[k].payment == ledger[k].payment + amount
              && r.ledger[k].principal == ledger[k].principal + amount
              && r.ledger[k].interest == ledger[k].interest
              && r.ledger[k].remainingBalance == Max(0.0, r.debts[t].currentBalance))
  {
  }

  /** The row the extra payment edits, once found at place `k`, gains the amount paid. */
  lemma ExtraEditsRow(ws: seq<WorkingDebt>, ledger: seq<MonthlyPayment>, month: nat, pool: real, k: nat)
    requires pool > 0.0 && !AllPaidOff(ws)
    requires FindRow(ledger, month, ws[FirstOpen(ws).value].debt.name) == Some(k)
    ensures var r := ApplyExtra(ws, ledger, month, pool);
      var t := FirstOpen(ws).value;
      var amount := Min(pool, ws[t].currentBalance);
      && k < |ledger|
      && (forall j :: 0 <= j < |ledger| && j != k ==> r.ledger[j] == ledger[j])
      && r.ledger[k].interest == ledger[k].interest
      && r.ledger[k].principal == ledger[k].principal + amount
      && r.ledger[k].remainingBalance == Max(0.0, r.debts[t].currentBalance)
  {
    ExtraEditsTargetRow(ws, ledger, month, pool);
  }

  /** The extra payment never changes the interest recorded in any row. */
  lemma ExtraKeepsInterest(ws: seq<WorkingDebt>, ledger: seq<MonthlyPayment>, month: nat, pool: real)
    ensures var r := ApplyExtra(ws, ledger, month, pool);
      SumInterest(r.ledger) == SumInterest(ledger)
  {
    var r := ApplyExtra(ws, ledger, month, pool);
    assert forall k :: 0 <= k < |ledger| ==> r.ledger[k].interest == ledger[k].interest;
    SumInterestOfSameInterests(r.ledger, ledger);
  }

  /** With amounts that are not negative the extra payment keeps every debt healthy and every open debt positive. */
  lemma ExtraKeepsHealthy(ws: seq<WorkingDebt>, ledger: seq<MonthlyPayment>, month: nat, pool: real)
    requires pool >= 0.0 && AllHealthy(ws) && OpenDebtsPositive(ws)
    ensures var r := ApplyExtra(ws, ledger, month, pool);
      AllHealthy(r.debts) && OpenDebtsPositive(r.debts)
  {
  }

  /**
   With distinct names, `FindRow` finds the row the minimum pass pushed for
   the debt at `t`: earlier months' rows never match, and the new rows name
   the open debts one each.
   */
  lemma FindsOwnRow(ledger: seq<MonthlyPayment>, rows: seq<MonthlyPayment>, ws: seq<WorkingDebt>, month: nat, t: nat, kt: nat)
    requires forall k :: 0 <= k < |ledger| ==> ledger[k].month < month
    requires DistinctNames(ws)
    requires |rows| == |OpenIndices(ws)|
    requires forall k :: 0 <= k < |rows| ==>
      rows[k].month == month && rows[k].debtName == ws[OpenIndices(ws)[k]].debt.name
    requires kt < |OpenIndices(ws)| && OpenIndices(ws)[kt] == t
    ensures FindRow(ledger + rows, month, ws[t].debt.name) == Some(|ledger| + kt)
  {
    var all := ledger + rows;
    var open := OpenIndices(ws);
    var name := ws[t].debt.name;
    assert all[|ledger| + kt] == rows[kt];
    var found := FindRow(all, month, name);
    assert found.Some?;
    var f := found.value;
    assert f <= |ledger| + kt;
    var k' := f - |ledger|;
    assert all[f] == rows[k'];
    assert open[k'] == t;
    OpenIndicesIncreasing(ws);
  }

  /**
   `debts'` and `ledger'` are what a month leaves after `ws` and `ledger`:
   one new row per debt open in `ws`, in order, holding that month's
   interest on the debt, the fall of its balance as principal, and its new
   balance clamped at zero.
   */
  predicate RecordsBalances(ws: seq<WorkingDebt>, ledger: seq<MonthlyPayment>,
                            debts': seq<WorkingDebt>, ledger': seq<MonthlyPayment>)
  {
    var open := OpenIndices(ws);
    && |debts'| == |ws|
    && |ledger'| == |ledger| + |open|
    && forall k :: 0 <= k < |open| ==>
         var w := ws[open[k]];
         && ledger'[|ledger| + k].interest == MonthlyInterest(w.currentBalance, w.debt.apr)
         && ledger'[|ledger| + k].principal == w.currentBalance - debts'[open[k]].currentBalance
         && ledger'[|ledger| + k].remainingBalance == Max(0.0, debts'[open[k]].currentBalance)
  }

  /**
   What the minimum pass of `month` leaves for the extra payment: the debts
   `ws` after the pass, one row per debt open in `start` in order, naming it
   and recording its interest, the fall of its balance and its clamped new
   balance, and
   only earlier months in `ledger`. Names are distinct.
   */
  predicate AfterPass(start: seq<WorkingDebt>, ws: seq<WorkingDebt>, ledger: seq<MonthlyPayment>,
                      rows: seq<MonthlyPayment>, month: nat)
  {
    && |ws| == |start| && DistinctNames(start)
    && (forall i :: 0 <= i < |start| ==> ws[i].debt == start[i].debt)
    && (forall i :: 0 <= i < |start| && start[i].isPaidOff ==> ws[i] == start[i])
    && (forall k :: 0 <= k < |ledger| ==> ledger[k].month < month)
    && |rows| == |OpenIndices(start)|
    && forall k :: 0 <= k < |rows| ==>
         var i := OpenIndices(start)[k];
         && rows[k].month == month && rows[k].debtName == start[i].debt.name
         && rows[k].interest == MonthlyInterest(start[i].currentBalance, start[i].debt.apr)
         && rows[k].principal == start[i].currentBalance - ws[i].currentBalance
         && rows[k].remainingBalance == Max(0.0, ws[i].currentBalance)
  }

  /** Before any extra payment the rows of the pass already record the balances it left. */
  lemma PassRecordsBalances(start: seq<WorkingDebt>, ws: seq<WorkingDebt>, ledger: seq<MonthlyPayment>,
                            rows: seq<MonthlyPayment>, month: nat)
    requires AfterPass(start, ws, ledger, rows, month)
    ensures RecordsBalances(start, ledger, ws, ledger + rows)
  {
    assert forall k :: 0 <= k < |rows| ==> (ledger + rows)[|ledger| + k] == rows[k];
  }

  /**
   With distinct names, the row the extra payment looks up for the first
   open debt is that debt's own row of this month, at place `kt` among the
   rows the pass pushed.
   */
  lemma FirstOpenRow(start: seq<WorkingDebt>, ws: seq<WorkingDebt>, ledger: seq<MonthlyPayment>,
                     rows: seq<MonthlyPayment>, month: nat) returns (kt: nat)
    requires AfterPass(start, ws, ledger, rows, month) && !AllPaidOff(ws)
    ensures var t := FirstOpen(ws).value;
      && kt < |rows| && OpenIndices(start)[kt] == t
      && FindRow(ledger + rows, month, ws[t].debt.name) == Some(|ledger| + kt)
  {
    var t := FirstOpen(ws).value;
    kt := OpenIndicesComplete(start, t);
    FindsOwnRow(ledger, rows, start, month, t, kt);
  }

  /**
   Paying `amount` off debt `t` and adding it to the row of `t` keeps every
   row of this month in step with its debt: the row of `t` moves with its
   balance, and the other rows and debts stay as they were.
   */
  lemma EditKeepsBalancesRecorded(start: seq<WorkingDebt>, ws: seq<WorkingDebt>, ledger: seq<MonthlyPayment>,
                                  rows: seq<MonthlyPayment>, month: nat, debts': seq<WorkingDebt>,
                                  ledger': seq<MonthlyPayment>, t: nat, kt: nat, amount: real)
    requires AfterPass(start, ws, ledger, rows, month)
    requires |debts'| == |ws| && |ledger'| == |ledger| + |rows|
    requires kt < |rows| && OpenIndices(start)[kt] == t
    requires debts'[t].currentBalance == ws[t].currentBalance - amount
    requires forall j :: 0 <= j < |ws| && j != t ==> debts'[j] == ws[j]
    requires forall j :: 0 <= j < |ledger'| && j != |ledger| + kt ==> ledger'[j] == (ledger + rows)[j]
    requires && ledger'[|ledger| + kt].interest == rows[kt].interest
             && ledger'[|ledger| + kt].principal == rows[kt].principal + amount
             && ledger'[|ledger| + kt].remainingBalance == Max(0.0, debts'[t].currentBalance)
    ensures RecordsBalances(start, ledger, debts', ledger')
  {
    OpenIndicesIncreasing(start);
    forall k | 0 <= k < |rows| && k != kt
      ensures ledger'[|ledger| + k] == rows[k]
    {
      assert (ledger + rows)[|ledger| + k] == rows[k];
    }
  }

  /**
   With distinct names, after the extra payment every row of this month
   records its debt's principal as the fall of that debt's balance since the
   start of the month, and the debt's new balance clamped at zero.
   */
  lemma ExtraRecordsBalances(start: seq<WorkingDebt>, ws: seq<WorkingDebt>, ledger: seq<MonthlyPayment>,
                             rows: seq<MonthlyPayment>, month: nat, pool: real)
    requires AfterPass(start, ws, ledger, rows, month)
    ensures var b := ApplyExtra(ws, ledger + rows, month, pool);
      RecordsBalances(start, ledger, b.debts, b.ledger)
  {
    var all := ledger + rows;
    var b := ApplyExtra(ws, all, month, pool);
    if pool > 0.0 && !AllPaidOff(ws) {
      var t := FirstOpen(ws).value;
      var kt := FirstOpenRow(start, ws, ledger, rows, month);
      assert all[|ledger| + kt] == rows[kt];
      ExtraEditsRow(ws, all, month, pool, |ledger| + kt);
      ExtraPaysFirstOpen(ws, all, month, pool);
      EditKeepsBalancesRecorded(start, ws, ledger, rows, month, b.debts, b.ledger, t, kt, Min(pool, ws[t].currentBalance));
    } else {
      assert b == Books(ws, all) by {
        ExtraPaysFirstOpen(ws, all, month, pool);
      }
      PassRecordsBalances(start, ws, ledger, rows, month);
    }
  }

  /** One iteration of the simulation loop: the minimum pass, then the extra payment. */
  function Step(st: State, extraPayment: real): (r: State)
    ensures r.month == st.month + 1
    ensures |r.debts| == |st.debts|
    ensures forall i :: 0 <= i < |st.debts| ==> r.debts[i].debt == st.debts[i].debt
    ensures forall i :: 0 <= i < |st.debts| && st.debts[i].isPaidOff ==> r.debts[i] == st.debts[i]
  {
    var month := st.month + 1;
    var pass := MinimumPass(st.debts, month, extraPayment);
    var books := ApplyExtra(pass.debts, st.ledger + pass.rows, month, pass.pool);
    State(books.debts, books.ledger, st.totalInterest + pass.interest, month)
  }

  /** The rows a month adds name the debts open at its start, in sorted order. */
  lemma StepRowNames(st: State, extraPayment: real)
    ensures RowNames(Step(st, extraPayment).ledger) == RowNames(st.ledger) + OpenNames(st.debts)
  {
    var month := st.month + 1;
    var pass := MinimumPass(st.debts, month, extraPayment);
    var all := st.ledger + pass.rows;
    var books := ApplyExtra(pass.debts, all, month, pass.pool);
    assert Step(st, extraPayment).ledger == books.ledger;
    MinimumPassRows(st.debts, month, extraPayment);
    ExtraKeepsRowNames(pass.debts, all, month, pass.pool);
    assert RowNames(books.ledger) == RowNames(all);
    RowNamesAppend(st.ledger, pass.rows);
  }

  /** The rows a month adds are dated that month, and rows of earlier months are never edited. */
  lemma StepRowMonths(st: State, extraPayment: real)
    ensures var r := Step(st, extraPayment);
      && |r.ledger| >= |st.ledger|
      && (forall k :: |st.ledger| <= k < |r.ledger| ==> r.ledger[k].month == r.month)
      && ((forall k :: 0 <= k < |st.ledger| ==> st.ledger[k].month <= st.month) ==>
            r.ledger[..|st.ledger|] == st.ledger)
  {
    var month := st.month + 1;
    var pass := MinimumPass(st.debts, month, extraPayment);
    var all := st.ledger + pass.rows;
    var books := ApplyExtra(pass.debts, all, month, pass.pool);
    assert Step(st, extraPayment).ledger == books.ledger;
    ExtraKeepsRows(pass.debts, all, month, pass.pool);
    assert |books.ledger| == |all|;
    if forall k :: 0 <= k < |st.ledger| ==> st.ledger[k].month <= st.month {
      assert books.ledger[..|st.ledger|] == st.ledger;
    }
  }

  /**
   Each month appends one row per debt open at its start, in sorted order,
   all dated that month; rows of earlier months are never edited.
   */
  lemma StepLedger(st: State, extraPayment: real)
    ensures var r := Step(st, extraPayment);
      && RowNames(r.ledger) == RowNames(st.ledger) + OpenNames(st.debts)
      && (forall k :: |st.ledger| <= k < |r.ledger| ==> r.ledger[k].month == r.month)
      && ((forall k :: 0 <= k < |st.ledger| ==> st.ledger[k].month <= st.month) ==>
            r.ledger[..|st.ledger|] == st.ledger)
  {
    StepRowNames(st, extraPayment);
    StepRowMonths(st, extraPayment);
  }

  /**
   The pool of each month is the extra payment plus the minimums of the
   debts paid off in that month's minimum pass, and nothing else: a freed
   minimum rolls over for one month only. `ApplyExtra` then gives that
   pool, capped at the balance, to the first debt still open.
   */
  lemma StepPool(st: State, extraPayment: real)
    ensures var pass := MinimumPass(st.debts, st.month + 1, extraPayment);
      var r := Step(st, extraPayment);
      r == State(
        ApplyExtra(pass.debts, st.ledger + pass.rows, st.month + 1, extraPayment + Freed(st.debts, pass.debts)).debts,
        ApplyExtra(pass.debts, st.ledger + pass.rows, st.month + 1, extraPayment + Freed(st.debts, pass.debts)).ledger,
        st.totalInterest + pass.interest,
        st.month + 1)
  {
    var month := st.month + 1;
    var pass := MinimumPass(st.debts, month, extraPayment);
    MinimumPassPool(st.debts, month, extraPayment);
    var books := ApplyExtra(pass.debts, st.ledger + pass.rows, month, pass.pool);
    assert Step(st, extraPayment) == State(books.debts, books.ledger, st.totalInterest + pass.interest, month);
  }

  /**
   A month adds to the running interest exactly the interest of the rows it
   pushes: the running total minus the interest recorded in the ledger is
   unchanged.
   */
  lemma StepInterest(st: State, extraPayment: real)
    ensures var r := Step(st, extraPayment);
      r.totalInterest - SumInterest(r.ledger) == st.totalInterest - SumInterest(st.ledger)
  {
    var month := st.month + 1;
    var pass := MinimumPass(st.debts, month, extraPayment);
    var all := st.ledger + pass.rows;
    assert SumInterest(all) == SumInterest(st.ledger) + pass.interest by {
      MinimumPassInterest(st.debts, month, extraPayment);
      SumInterestAppend(st.ledger, pass.rows);
    }
    var books := ApplyExtra(pass.debts, all, month, pass.pool);
    assert SumInterest(books.ledger) == SumInterest(all) by {
      ExtraKeepsInterest(pass.debts, all, month, pass.pool);
    }
    assert Step(st, extraPayment) == State(books.debts, books.ledger, st.totalInterest + pass.interest, month);
  }

  /**
   With distinct names, the minimum pass followed by the extra payment
   leaves, for each debt open before the pass, a row holding that month's
   interest on the debt, the fall of its balance over both steps as
   principal, and its final balance clamped at zero.
   */
  lemma PassAndExtraRecordBalances(ws: seq<WorkingDebt>, ledger: seq<MonthlyPayment>, month: nat, pool: real)
    requires DistinctNames(ws)
    requires forall k :: 0 <= k < |ledger| ==> ledger[k].month < month
    ensures var pass := MinimumPass(ws, month, pool);
      var b := ApplyExtra(pass.debts, ledger + pass.rows, month, pass.pool);
      RecordsBalances(ws, ledger, b.debts, b.ledger)
  {
    var pass := MinimumPass(ws, month, pool);
    assert AfterPass(ws, pass.debts, ledger, pass.rows, month) by {
      PassRowsRecordCharges(ws, month, pool);
    }
    ExtraRecordsBalances(ws, pass.debts, ledger, pass.rows, month, pass.pool);
  }

  /**
   The minimum pass followed by the extra payment appends one row per debt
   open before the pass, in order, naming the debt and holding one month of
   interest on its balance before the pass. Shared names do not matter here.
   */
  lemma PassAndExtraRows(ws: seq<WorkingDebt>, ledger: seq<MonthlyPayment>, month: nat, pool: real)
    ensures var pass := MinimumPass(ws, month, pool);
      var b := ApplyExtra(pass.debts, ledger + pass.rows, month, pass.pool);
      var open := OpenIndices(ws);
      && |b.ledger| == |ledger| + |open|
      && forall k :: 0 <= k < |open| ==>
           && b.ledger[|ledger| + k].debtName == ws[open[k]].debt.name
           && b.ledger[|ledger| + k].interest == MonthlyInterest(ws[open[k]].currentBalance, ws[open[k]].debt.apr)
  {
    var pass := MinimumPass(ws, month, pool);
    var all := ledger + pass.rows;
    var b := ApplyExtra(pass.debts, all, month, pass.pool);
    var open := OpenIndices(ws);
    assert |pass.rows| == |open| && forall k :: 0 <= k < |open| ==>
      && pass.rows[k].debtName == ws[open[k]].debt.name
      && pass.rows[k].interest == MonthlyInterest(ws[open[k]].currentBalance, ws[open[k]].debt.apr) by {
      PassRowsRecordCharges(ws, month, pool);
    }
    ExtraKeepsRowNames(pass.debts, all, month, pass.pool);
    ExtraKeepsRowInterests(pass.debts, all, month, pass.pool);
    forall k | 0 <= k < |open|
      ensures b.ledger[|ledger| + k].debtName == pass.rows[k].debtName
      ensures b.ledger[|ledger| + k].interest == pass.rows[k].interest
    {
      assert all[|ledger| + k] == pass.rows[k];
    }
  }

  /** The extra payment leaves the interest of every row as it was. */
  lemma ExtraKeepsRowInterests(ws: seq<WorkingDebt>, ledger: seq<MonthlyPayment>, month: nat, pool: real)
    ensures var r := ApplyExtra(ws, ledger, month, pool);
      forall k :: 0 <= k < |ledger| ==> r.ledger[k].interest == ledger[k].interest
  {
    ExtraEditsTargetRow(ws, ledger, month, pool);
  }

  /**
   A month writes one row per debt open at its start, and the row of the
   k-th open debt holds one month of interest on that debt's balance at the
   start of the month. Shared names do not matter here.
   */
  lemma StepRowInterests(st: State, extraPayment: real)
    ensures var r := Step(st, extraPayment);
      var open := OpenIndices(st.debts);
      && |r.ledger| == |st.ledger| + |open|
      && forall k :: 0 <= k < |open| ==>
           var w := st.debts[open[k]];
           r.ledger[|st.ledger| + k].interest == MonthlyInterest(w.currentBalance, w.debt.apr)
  {
    var month := st.month + 1;
    var pass := MinimumPass(st.debts, month, extraPayment);
    var books := ApplyExtra(pass.debts, st.ledger + pass.rows, month, pass.pool);
    assert Step(st, extraPayment).ledger == books.ledger;
    PassAndExtraRows(st.debts, st.ledger, month, extraPayment);
  }


  /**
   With distinct names, the row a month writes for each debt open at its
   start records that month's interest on the debt, the fall of its balance
   over the whole month as principal, and its balance at the end of the
   month, clamped at zero.
   */
  lemma StepRowsRecordBalances(st: State, extraPayment: real)
    requires DistinctNames(st.debts)
    requires forall k :: 0 <= k < |st.ledger| ==> st.ledger[k].month <= st.month
    ensures var r := Step(st, extraPayment);
      RecordsBalances(st.debts, st.ledger, r.debts, r.ledger)
  {
    var month := st.month + 1;
    var pass := MinimumPass(st.debts, month, extraPayment);
    var books := ApplyExtra(pass.debts, st.ledger + pass.rows, month, pass.pool);
    assert Step(st, extraPayment).debts == books.debts && Step(st, extraPayment).ledger == books.ledger;
    PassAndExtraRecordBalances(st.debts, st.ledger, month, extraPayment);
  }

  /** The row the pass pushes for each open debt records its charge: interest, principal and new balance. */
  lemma PassRowsRecordCharges(ws: seq<WorkingDebt>, month: nat, pool: real)
    ensures var pass := MinimumPass(ws, month, pool);
      var open := OpenIndices(ws);
      && |pass.rows| == |open|
      && forall k :: 0 <= k < |open| ==>
           var i := open[k];
           && pass.rows[k].month == month && pass.rows[k].debtName == ws[i].debt.name
           && pass.rows[k].interest == MonthlyInterest(ws[i].currentBalance, ws[i].debt.apr)
           && pass.rows[k].principal == ws[i].currentBalance - pass.debts[i].currentBalance
           && pass.rows[k].remainingBalance == Max(0.0, pass.debts[i].currentBalance)
  {
    MinimumPassChargeRows(ws, month, pool);
    MinimumPassCharges(ws, month, pool);
  }

  /** With amounts that are not negative a month keeps every debt healthy and the interest total not negative. */
  lemma StepHealthy(st: State, extraPayment: real)
    requires Consistent(st, extraPayment)
    ensures var r := Step(st, extraPayment);
      AllHealthy(r.debts) && OpenDebtsPositive(r.debts) && r.totalInterest >= 0.0
  {
    var month := st.month + 1;
    var pass := MinimumPass(st.debts, month, extraPayment);
    assert AllHealthy(pass.debts) && OpenDebtsPositive(pass.debts) && pass.interest >= 0.0 && pass.pool >= 0.0 by {
      MinimumPassHealthy(st.debts, month, extraPayment);
      MinimumPassPool(st.debts, month, extraPayment);
    }
    var books := ApplyExtra(pass.debts, st.ledger + pass.rows, month, pass.pool);
    assert AllHealthy(books.debts) && OpenDebtsPositive(books.debts) by {
      ExtraKeepsHealthy(pass.debts, st.ledger + pass.rows, month, pass.pool);
    }
    assert Step(st, extraPayment) == State(books.debts, books.ledger, st.totalInterest + pass.interest, month);
  }

  /** With amounts that are not negative every row of the ledger stays sound after a month. */
  lemma StepRowsSound(st: State, extraPayment: real)
    requires Consistent(st, extraPayment)
    ensures AllRowsSound(Step(st, extraPayment).ledger)
  {
    var month := st.month + 1;
    var pass := MinimumPass(st.debts, month, extraPayment);
    var all := st.ledger + pass.rows;
    assert AllHealthy(pass.debts) && AllRowsSound(pass.rows) && pass.pool >= 0.0 by {
      MinimumPassHealthy(st.debts, month, extraPayment);
      MinimumPassPool(st.debts, month, extraPayment);
    }
    assert AllRowsSound(all) by {
      assert forall k :: |st.ledger| <= k < |all| ==> all[k] == pass.rows[k - |st.ledger|];
    }
    var books := ApplyExtra(pass.debts, all, month, pass.pool);
    assert AllRowsSound(books.ledger) by {
      ExtraKeepsRows(pass.debts, all, month, pass.pool);
    }
    assert Step(st, extraPayment).ledger == books.ledger;
  }

  /** Every row stays dated between month 1 and the current month. */
  lemma StepRowsDated(st: State, extraPayment: real)
    requires Consistent(st, extraPayment)
    ensures var r := Step(st, extraPayment);
      forall k :: 0 <= k < |r.ledger| ==> 1 <= r.ledger[k].month <= r.month
  {
    StepRowMonths(st, extraPayment);
    var r := Step(st, extraPayment);
    forall k | 0 <= k < |r.ledger|
      ensures 1 <= r.ledger[k].month <= r.month
    {
      if k < |st.ledger| {
        assert r.ledger[k] == r.ledger[..|st.ledger|][k];
      }
    }
  }

  /** The loop invariant: one month keeps `Consistent`. */
  lemma StepConsistent(st: State, extraPayment: real)
    requires Consistent(st, extraPayment) && st.month < MaxMonths
    ensures Consistent(Step(st, extraPayment), extraPayment)
  {
    StepHealthy(st, extraPayment);
    StepRowsSound(st, extraPayment);
    StepRowsDated(st, extraPayment);
  }

  // ---------------------------------------------------------------------------
  // The whole simulation

  /** The working copies at the start: every debt open, at its recorded balance. */
  function Start(sorted: seq<Debt>): (st: State)
    ensures |st.debts| == |sorted| && st.ledger == [] && st.month == 0 && st.totalInterest == 0.0
    ensures forall i :: 0 <= i < |sorted| ==> st.debts[i].debt == sorted[i] && !st.debts[i].isPaidOff
    ensures forall i :: 0 <= i < |sorted| ==> st.debts[i].currentBalance == sorted[i].balance
  {
    State(seq(|sorted|, i requires 0 <= i < |sorted| => WorkingDebt(sorted[i], sorted[i].balance, false)), [], 0.0, 0)
  }

  lemma StartConsistent(sorted: seq<Debt>, extraPayment: real)
    requires ValidInput(sorted, extraPayment)
    ensures Consistent(Start(sorted), extraPayment)
  {
  }

  /** The loop `while (some debt is open && month < 600)`. */
  function Simulate(st: State, extraPayment: real): (r: State)
    requires st.month <= MaxMonths
    ensures st.month <= r.month <= MaxMonths
    ensures r.month < MaxMonths ==> AllPaidOff(r.debts)
    ensures AllPaidOff(st.debts) ==> r == st
    ensures !AllPaidOff(st.debts) && st.month < MaxMonths ==> r.month > st.month
    ensures |r.debts| == |st.debts|
    ensures forall i :: 0 <= i < |st.debts| ==> r.debts[i].debt == st.debts[i].debt
    decreases MaxMonths - st.month
  {
    if AllPaidOff(st.debts) || st.month >= MaxMonths then st
    else Simulate(Step(st, extraPayment), extraPayment)
  }

  lemma {:induction false} SimulateConsistent(st: State, extraPayment: real)
    requires Consistent(st, extraPayment)
    ensures Consistent(Simulate(st, extraPayment), extraPayment)
    decreases MaxMonths - st.month
  {
    if !(AllPaidOff(st.debts) || st.month >= MaxMonths) {
      StepConsistent(st, extraPayment);
      SimulateConsistent(Step(st, extraPayment), extraPayment);
    }
  }

  /** A debt once paid off stays paid off, and its working copy never changes again. */
  lemma {:induction false} SimulateKeepsPaidOff(st: State, extraPayment: real, i: nat)
    requires st.month <= MaxMonths
    requires i < |st.debts| && st.debts[i].isPaidOff
    ensures Simulate(st, extraPayment).debts[i] == st.debts[i]
    decreases MaxMonths - st.month
  {
    if !(AllPaidOff(st.debts) || st.month >= MaxMonths) {
      SimulateKeepsPaidOff(Step(st, extraPayment), extraPayment, i);
    }
  }

  /**
   The debt names of the rows the simulation appends from `st` on: month by
   month, the names of the debts open at the start of that month.
   */
  ghost function ScheduledNames(st: State, extraPayment: real): seq<string>
    requires st.month <= MaxMonths
    decreases MaxMonths - st.month
  {
    if AllPaidOff(st.debts) || st.month >= MaxMonths then []
    else OpenNames(st.debts) + ScheduledNames(Step(st, extraPayment), extraPayment)
  }

  /** One month of the loop, when it runs: the rest of the run and of the schedule start from `Step`. */
  lemma SimulateUnfold(st: State, extraPayment: real)
    requires st.month < MaxMonths && !AllPaidOff(st.debts)
    ensures Simulate(st, extraPayment) == Simulate(Step(st, extraPayment), extraPayment)
    ensures ScheduledNames(st, extraPayment) == OpenNames(st.debts) + ScheduledNames(Step(st, extraPayment), extraPayment)
  {
  }

  /** The ledger is exactly the month-by-month schedule of open debts. */
  lemma {:induction false} SimulateLedgerNames(st: State, extraPayment: real)
    requires st.month <= MaxMonths
    ensures RowNames(Simulate(st, extraPayment).ledger) == RowNames(st.ledger) + ScheduledNames(st, extraPayment)
    decreases MaxMonths - st.month
  {
    if !(AllPaidOff(st.debts) || st.month >= MaxMonths) {
      var next := Step(st, extraPayment);
      StepRowNames(st, extraPayment);
      SimulateLedgerNames(next, extraPayment);
      SimulateUnfold(st, extraPayment);
      Regroup(RowNames(Simulate(next, extraPayment).ledger), RowNames(next.ledger),
              RowNames(st.ledger), OpenNames(st.debts), ScheduledNames(next, extraPayment), ScheduledNames(st, extraPayment));
    }
  }

  lemma Regroup<T>(whole: seq<T>, head: seq<T>, rows: seq<T>, open: seq<T>, later: seq<T>, scheduled: seq<T>)
    requires whole == head + later && head == rows + open && scheduled == open + later
    ensures whole == rows + scheduled
  {
  }

  /** The whole run adds to the running interest exactly the interest of the rows it writes. */
  lemma {:induction false} SimulateInterest(st: State, extraPayment: real)
    requires st.month <= MaxMonths
    ensures var r := Simulate(st, extraPayment);
      r.totalInterest - SumInterest(r.ledger) == st.totalInterest - SumInterest(st.ledger)
    decreases MaxMonths - st.month
  {
    if !(AllPaidOff(st.debts) || st.month >= MaxMonths) {
      StepInterest(st, extraPayment);
      SimulateInterest(Step(st, extraPayment), extraPayment);
      SimulateUnfold(st, extraPayment);
    }
  }

  /** Rows already written keep their place and their content to the end of the simulation. */
  lemma {:induction false} SimulateKeepsRows(st: State, extraPayment: real)
    requires st.month <= MaxMonths
    requires forall k :: 0 <= k < |st.ledger| ==> st.ledger[k].month <= st.month
    ensures |Simulate(st, extraPayment).ledger| >= |st.ledger|
    ensures Simulate(st, extraPayment).ledger[..|st.ledger|] == st.ledger
    decreases MaxMonths - st.month
  {
    if !(AllPaidOff(st.debts) || st.month >= MaxMonths) {
      var next := Step(st, extraPayment);
      StepRowsNotLater(st, extraPayment);
      SimulateKeepsRows(next, extraPayment);
      var r := Simulate(next, extraPayment);
      assert r.ledger[..|st.ledger|] == r.ledger[..|next.ledger|][..|st.ledger|];
    }
  }

  /**
   A run that simulates at least one month ends on a month that wrote a
   row: the last row of the ledger carries the final month.
   */
  lemma {:induction false} SimulateLastRow(st: State, extraPayment: real)
    requires st.month < MaxMonths && !AllPaidOff(st.debts)
    ensures var fin := Simulate(st, extraPayment);
      |fin.ledger| > 0 && fin.ledger[|fin.ledger| - 1].month == fin.month
    decreases MaxMonths - st.month
  {
    var next := Step(st, extraPayment);
    assert Simulate(st, extraPayment) == Simulate(next, extraPayment);
    if AllPaidOff(next.debts) || next.month >= MaxMonths {
      var i :| 0 <= i < |st.debts| && !st.debts[i].isPaidOff;
      var k := OpenIndicesComplete(st.debts, i);
      StepRowInterests(st, extraPayment);
      StepLedger(st, extraPayment);
    } else {
      SimulateLastRow(next, extraPayment);
    }
  }

  // ---------------------------------------------------------------------------
  // The last row of each debt

  /** Each debt's latest ledger row records its current balance, clamped at zero. */
  predicate LastRowsRecord(ws: seq<WorkingDebt>, ledger: seq<MonthlyPayment>) {
    forall i :: 0 <= i < |ws| && LastRow(ledger, ws[i].debt.name).Some? ==>
      ledger[LastRow(ledger, ws[i].debt.name).value].remainingBalance == Max(0.0, ws[i].currentBalance)
  }

  /**
   `ledger'` is `ledger` with one row appended per debt open in `ws`, in
   order, each naming its debt.
   */
  predicate NewRowsNamed(ws: seq<WorkingDebt>, ledger: seq<MonthlyPayment>, ledger': seq<MonthlyPayment>) {
    var open := OpenIndices(ws);
    && |ledger'| == |ledger| + |open|
    && ledger'[..|ledger|] == ledger
    && forall k :: 0 <= k < |open| ==> ledger'[|ledger| + k].debtName == ws[open[k]].debt.name
  }

  /** The extra payment leaves the name of every row as it was. */
  lemma ExtraKeepsRowNames(ws: seq<WorkingDebt>, ledger: seq<MonthlyPayment>, month: nat, pool: real)
    ensures var r := ApplyExtra(ws, ledger, month, pool);
      |r.ledger| == |ledger| && forall k :: 0 <= k < |ledger| ==> r.ledger[k].debtName == ledger[k].debtName
  {
    ExtraEditsTargetRow(ws, ledger, month, pool);
  }

  /** The rows a month adds name, in order, the debts open at its start. */
  lemma StepRowsNamed(st: State, extraPayment: real)
    ensures var r := Step(st, extraPayment);
      var open := OpenIndices(st.debts);
      && |r.ledger| == |st.ledger| + |open|
      && forall k :: 0 <= k < |open| ==> r.ledger[|st.ledger| + k].debtName == st.debts[open[k]].debt.name
  {
    var month := st.month + 1;
    var pass := MinimumPass(st.debts, month, extraPayment);
    var books := ApplyExtra(pass.debts, st.ledger + pass.rows, month, pass.pool);
    assert Step(st, extraPayment).ledger == books.ledger;
    PassAndExtraRows(st.debts, st.ledger, month, extraPayment);
  }


  /** Rows dated no later than the current month stay so after a month, and are not edited. */
  lemma StepRowsNotLater(st: State, extraPayment: real)
    requires forall k :: 0 <= k < |st.ledger| ==> st.ledger[k].month <= st.month
    ensures var r := Step(st, extraPayment);
      && |r.ledger| >= |st.ledger|
      && r.ledger[..|st.ledger|] == st.ledger
      && forall k :: 0 <= k < |r.ledger| ==> r.ledger[k].month <= r.month
  {
    var r := Step(st, extraPayment);
    StepLedger(st, extraPayment);
    assert |RowNames(r.ledger)| == |r.ledger|;
    forall k | 0 <= k < |r.ledger|
      ensures r.ledger[k].month <= r.month
    {
      if k < |st.ledger| {
        assert r.ledger[k] == r.ledger[..|st.ledger|][k];
      }
    }
  }

  /** With distinct names, the new row of an open debt is its last row. */
  lemma OpenDebtLastRow(ws: seq<WorkingDebt>, ledger: seq<MonthlyPayment>, ledger': seq<MonthlyPayment>, k: nat)
    requires DistinctNames(ws) && NewRowsNamed(ws, ledger, ledger')
    requires k < |OpenIndices(ws)|
    ensures LastRow(ledger', ws[OpenIndices(ws)[k]].debt.name) == Some(|ledger| + k)
  {
    var open := OpenIndices(ws);
    var n := |ledger|;
    var name := ws[open[k]].debt.name;
    OpenIndicesIncreasing(ws);
    forall j | n + k < j < |ledger'|
      ensures ledger'[j].debtName != name
    {
      var l := j - n;
      assert open[k] < open[l];
      assert ledger'[n + l].debtName == ws[open[l]].debt.name;
    }
    LastRowAt(ledger', name, n + k);
  }

  /** With distinct names, a paid-off debt gets no new row, so its last row stays where it was. */
  lemma PaidDebtLastRow(ws: seq<WorkingDebt>, ledger: seq<MonthlyPayment>, ledger': seq<MonthlyPayment>, i: nat)
    requires DistinctNames(ws) && NewRowsNamed(ws, ledger, ledger')
    requires i < |ws| && ws[i].isPaidOff
    ensures LastRow(ledger', ws[i].debt.name) == LastRow(ledger, ws[i].debt.name)
  {
    var open := OpenIndices(ws);
    var n := |ledger|;
    var name := ws[i].debt.name;
    forall j | n <= j < |ledger'|
      ensures ledger'[j].debtName != name
    {
      var l := j - n;
      assert ledger'[n + l].debtName == ws[open[l]].debt.name;
      assert open[l] != i;
    }
    forall j | 0 <= j < n
      ensures ledger'[j] == ledger[j]
    {
      assert ledger'[j] == ledger'[..n][j];
    }
    match LastRow(ledger', name)
    case None =>
    case Some(v) =>
      LastRowAt(ledger, name, v);
  }

  /**
   With distinct names a month keeps each debt's last row in step with its
   balance: a debt open at the start gets a new last row holding its new
   balance, and a paid-off debt gets no row, while its balance and its old
   row stay as they were.
   */
  lemma LastRowsAfterMonth(ws: seq<WorkingDebt>, ledger: seq<MonthlyPayment>,
                           ws': seq<WorkingDebt>, ledger': seq<MonthlyPayment>)
    requires DistinctNames(ws) && NewRowsNamed(ws, ledger, ledger')
    requires RecordsBalances(ws, ledger, ws', ledger')
    requires forall i :: 0 <= i < |ws| ==> ws'[i].debt == ws[i].debt
    requires forall i :: 0 <= i < |ws| && ws[i].isPaidOff ==> ws'[i] == ws[i]
    requires LastRowsRecord(ws, ledger)
    ensures LastRowsRecord(ws', ledger')
  {
    var open := OpenIndices(ws);
    forall i | 0 <= i < |ws'| && LastRow(ledger', ws'[i].debt.name).Some?
      ensures ledger'[LastRow(ledger', ws'[i].debt.name).value].remainingBalance == Max(0.0, ws'[i].currentBalance)
    {
      if !ws[i].isPaidOff {
        var k := OpenIndicesComplete(ws, i);
        OpenDebtLastRow(ws, ledger, ledger', k);
      } else {
        PaidDebtLastRow(ws, ledger, ledger', i);
        var v := LastRow(ledger, ws[i].debt.name).value;
        assert ledger'[v] == ledger'[..|ledger|][v];
      }
    }
  }

  /** One month of the loop keeps `LastRowsRecord`, when names are distinct. */
  lemma StepLastRows(st: State, extraPayment: real)
    requires DistinctNames(st.debts)
    requires forall k :: 0 <= k < |st.ledger| ==> st.ledger[k].month <= st.month
    requires LastRowsRecord(st.debts, st.ledger)
    ensures LastRowsRecord(Step(st, extraPayment).debts, Step(st, extraPayment).ledger)
  {
    var r := Step(st, extraPayment);
    StepRowsRecordBalances(st, extraPayment);
    StepRowsNamed(st, extraPayment);
    StepRowsNotLater(st, extraPayment);
    LastRowsAfterMonth(st.debts, st.ledger, r.debts, r.ledger);
  }

  /** Over the whole run, with distinct names, each debt's last row records its final balance. */
  lemma {:induction false} SimulateLastRows(st: State, extraPayment: real)
    requires st.month <= MaxMonths && DistinctNames(st.debts)
    requires forall k :: 0 <= k < |st.ledger| ==> st.ledger[k].month <= st.month
    requires LastRowsRecord(st.debts, st.ledger)
    ensures LastRowsRecord(Simulate(st, extraPayment).debts, Simulate(st, extraPayment).ledger)
    decreases MaxMonths - st.month
  {
    if !(AllPaidOff(st.debts) || st.month >= MaxMonths) {
      var next := Step(st, extraPayment);
      StepLastRows(st, extraPayment);
      StepRowsNotLater(st, extraPayment);
      assert DistinctNames(next.debts);
      SimulateLastRows(next, extraPayment);
      assert Simulate(st, extraPayment) == Simulate(next, extraPayment);
    }
  }

  // ---------------------------------------------------------------------------
  // Output assembly

  /**
   The first-month snapshot: every debt's minimum, plus the whole extra
   payment for each entry whose id equals the first sorted debt's id.
   */
  function DebtPayments(sorted: seq<Debt>, extraPayment: real): (r: seq<DebtPayment>)
    ensures |r| == |sorted|
    ensures forall i :: 0 <= i < |sorted| ==> r[i].debtId == sorted[i].id && r[i].debtName == sorted[i].name
    ensures |sorted| > 0 ==> r[0].monthlyPayment == sorted[0].minimumPayment + extraPayment
    ensures forall i :: 0 <= i < |sorted| && sorted[i].id != sorted[0].id ==>
      r[i].monthlyPayment == sorted[i].minimumPayment
    ensures forall i :: 0 <= i < |sorted| && sorted[i].id == sorted[0].id ==>
      r[i].monthlyPayment == sorted[i].minimumPayment + extraPayment
  {
    seq(|sorted|, i requires 0 <= i < |sorted| =>
      DebtPayment(sorted[i].id, sorted[i].name,
                  sorted[i].minimumPayment + (if sorted[i].id == sorted[0].id then extraPayment else 0.0)))
  }

  function TotalSnapshot(ps: seq<DebtPayment>): real
  {
    if |ps| == 0 then 0.0 else ps[0].monthlyPayment + TotalSnapshot(ps[1..])
  }

  function TotalMinimum(ds: seq<Debt>): real
  {
    if |ds| == 0 then 0.0 else ds[0].minimumPayment + TotalMinimum(ds[1..])
  }

  predicate DistinctIds(ds: seq<Debt>) {
    forall i, j :: 0 <= i < j < |ds| ==> ds[i].id != ds[j].id
  }

  predicate DistinctDebtNames(ds: seq<Debt>) {
    forall i, j :: 0 <= i < j < |ds| ==> ds[i].name != ds[j].name
  }

  lemma {:induction false} SnapshotOfMinimums(ps: seq<DebtPayment>, ds: seq<Debt>)
    requires |ps| == |ds|
    requires forall i :: 0 <= i < |ds| ==> ps[i].monthlyPayment == ds[i].minimumPayment
    ensures TotalSnapshot(ps) == TotalMinimum(ds)
  {
    if |ds| > 0 {
      SnapshotOfMinimums(ps[1..], ds[1..]);
    }
  }

  /** With distinct ids the snapshot adds up to all minimums plus the extra payment once. */
  lemma SnapshotTotal(sorted: seq<Debt>, extraPayment: real)
    requires |sorted| > 0 && DistinctIds(sorted)
    ensures TotalSnapshot(DebtPayments(sorted, extraPayment)) == TotalMinimum(sorted) + extraPayment
  {
    var r := DebtPayments(sorted, extraPayment);
    SnapshotOfMinimums(r[1..], sorted[1..]);
  }

  /** `calculatePayoffStrategy`: simulate, round the interest to cents, add the snapshot. */
  function CalculatePayoffStrategy(sorted: seq<Debt>, extraPayment: real, payoffMethod: PayoffMethod): (r: PayoffStrategy)
    ensures r.payoffMethod == payoffMethod
    ensures r.monthsToPayoff <= MaxMonths
    ensures r.monthsToPayoff == 0 <==> |sorted| == 0
    ensures |sorted| == 0 ==> r.monthlyPayments == [] && r.totalInterestPaid == 0.0 && r.debtPayments == []
    ensures IsCents(r.totalInterestPaid)
    ensures r.totalInterestPaid == RoundCents(SumInterest(r.monthlyPayments))
    ensures |r.debtPayments| == |sorted|
    ensures forall i :: 0 <= i < |sorted| ==> r.debtPayments[i].debtId == sorted[i].id
    ensures forall i :: 0 <= i < |sorted| && sorted[i].id != sorted[0].id ==>
      r.debtPayments[i].monthlyPayment == sorted[i].minimumPayment
    ensures forall i :: 0 <= i < |sorted| && sorted[i].id == sorted[0].id ==>
      r.debtPayments[i].monthlyPayment == sorted[i].minimumPayment + extraPayment
  {
    var fin := Simulate(Start(sorted), extraPayment);
    assert |sorted| > 0 ==> !Start(sorted).debts[0].isPaidOff;
    SimulateInterest(Start(sorted), extraPayment);
    PayoffStrategy(payoffMethod, fin.ledger, RoundCents(fin.totalInterest), fin.month, DebtPayments(sorted, extraPayment))
  }

  /** The ledger and month count of a strategy are those of the run's final state. */
  lemma StrategyOfRun(sorted: seq<Debt>, extraPayment: real, payoffMethod: PayoffMethod)
    ensures var r := CalculatePayoffStrategy(sorted, extraPayment, payoffMethod);
      var fin := Simulate(Start(sorted), extraPayment);
      r.monthlyPayments == fin.ledger && r.monthsToPayoff == fin.month
  {
  }

  /**
   With amounts that are not negative: every row has payment = principal +
   interest and no negative balance, the total interest is not negative, and
   a run that stops before the limit leaves every debt paid off at zero.
   */
  lemma PayoffStrategySound(sorted: seq<Debt>, extraPayment: real, payoffMethod: PayoffMethod)
    requires ValidInput(sorted, extraPayment)
    ensures var r := CalculatePayoffStrategy(sorted, extraPayment, payoffMethod);
      && AllRowsSound(r.monthlyPayments)
      && (forall k :: 0 <= k < |r.monthlyPayments| ==> 1 <= r.monthlyPayments[k].month <= r.monthsToPayoff)
      && r.totalInterestPaid >= 0.0
    ensures var r := CalculatePayoffStrategy(sorted, extraPayment, payoffMethod);
      var fin := Simulate(Start(sorted), extraPayment);
      r.monthsToPayoff < MaxMonths ==>
        forall i :: 0 <= i < |fin.debts| ==> fin.debts[i].isPaidOff && fin.debts[i].currentBalance == 0.0
  {
    StartConsistent(sorted, extraPayment);
    SimulateConsistent(Start(sorted), extraPayment);
  }

  /** `monthsToPayoff` is the month of the last ledger row: the loop stops in the month that wrote it. */
  lemma PayoffMonthsIsLastRow(sorted: seq<Debt>, extraPayment: real, payoffMethod: PayoffMethod)
    requires |sorted| > 0
    ensures var r := CalculatePayoffStrategy(sorted, extraPayment, payoffMethod);
      && |r.monthlyPayments| > 0
      && r.monthlyPayments[|r.monthlyPayments| - 1].month == r.monthsToPayoff
  {
    var st := Start(sorted);
    assert !st.debts[0].isPaidOff;
    SimulateLastRow(st, extraPayment);
    StrategyOfRun(sorted, extraPayment, payoffMethod);
  }

  /**
   With amounts that are not negative and distinct names, a run that stops
   before the limit ends with every debt's last row, if it has one, at a
   remaining balance of zero.
   */
  lemma SimulateLastRowsPaid(sorted: seq<Debt>, extraPayment: real)
    requires ValidInput(sorted, extraPayment) && DistinctDebtNames(sorted)
    ensures var fin := Simulate(Start(sorted), extraPayment);
      fin.month < MaxMonths ==>
        forall i :: 0 <= i < |sorted| && LastRow(fin.ledger, sorted[i].name).Some? ==>
          fin.ledger[LastRow(fin.ledger, sorted[i].name).value].remainingBalance == 0.0
  {
    var st := Start(sorted);
    var fin := Simulate(st, extraPayment);
    assert DistinctNames(st.debts);
    assert LastRowsRecord(st.debts, st.ledger);
    SimulateLastRows(st, extraPayment);
    StartConsistent(sorted, extraPayment);
    SimulateConsistent(st, extraPayment);
    forall i | 0 <= i < |sorted|
      ensures fin.debts[i].debt.name == sorted[i].name
    {
    }
  }

  /**
   With amounts that are not negative and distinct names, a run that stops
   before the limit leaves every debt's last ledger row at a remaining
   balance of zero.
   */
  lemma PayoffLastRowsPaid(sorted: seq<Debt>, extraPayment: real, payoffMethod: PayoffMethod)
    requires ValidInput(sorted, extraPayment) && DistinctDebtNames(sorted)
    ensures var r := CalculatePayoffStrategy(sorted, extraPayment, payoffMethod);
      r.monthsToPayoff < MaxMonths ==>
        forall i :: 0 <= i < |sorted| ==>
          && LastRow(r.monthlyPayments, sorted[i].name).Some?
          && r.monthlyPayments[LastRow(r.monthlyPayments, sorted[i].name).value].remainingBalance == 0.0
  {
    var fin := Simulate(Start(sorted), extraPayment);
    StrategyOfRun(sorted, extraPayment, payoffMethod);
    SimulateLastRowsPaid(sorted, extraPayment);
    FirstMonthRows(sorted, extraPayment, payoffMethod);
  }

  /** The first month charges each debt one month of interest on its full balance, in sorted order. */
  lemma StartStepInterests(sorted: seq<Debt>, extraPayment: real)
    ensures var next := Step(Start(sorted), extraPayment);
      && |next.ledger| == |sorted|
      && forall i :: 0 <= i < |sorted| ==> next.ledger[i].interest == MonthlyInterest(sorted[i].balance, sorted[i].apr)
  {
    var st := Start(sorted);
    var next := Step(st, extraPayment);
    AllOpenIndices(st.debts);
    StepRowInterests(st, extraPayment);
    forall i | 0 <= i < |sorted|
      ensures next.ledger[i].interest == MonthlyInterest(sorted[i].balance, sorted[i].apr)
    {
      assert OpenIndices(st.debts)[i] == i;
      assert st.debts[i].currentBalance == sorted[i].balance && st.debts[i].debt == sorted[i];
      assert |st.ledger| + i == i;
    }
  }

  /** The first month writes one row per debt, dated month 1 and naming the debts in sorted order. */
  lemma StartStepNames(sorted: seq<Debt>, extraPayment: real)
    ensures var next := Step(Start(sorted), extraPayment);
      && |next.ledger| == |sorted|
      && forall i :: 0 <= i < |sorted| ==> next.ledger[i].month == 1 && next.ledger[i].debtName == sorted[i].name
  {
    var st := Start(sorted);
    var next := Step(st, extraPayment);
    AllOpenIndices(st.debts);
    StepRowsNamed(st, extraPayment);
    StepRowMonths(st, extraPayment);
    forall i | 0 <= i < |sorted|
      ensures next.ledger[i].debtName == sorted[i].name
    {
      assert OpenIndices(st.debts)[i] == i;
      assert |st.ledger| + i == i;
    }
  }

  /** Month 1 has one row per debt, in sorted order, even for a debt whose balance is already zero. */
  lemma FirstMonthRows(sorted: seq<Debt>, extraPayment: real, payoffMethod: PayoffMethod)
    requires ValidInput(sorted, extraPayment)
    ensures var r := CalculatePayoffStrategy(sorted, extraPayment, payoffMethod);
      && |r.monthlyPayments| >= |sorted|
      && forall i :: 0 <= i < |sorted| ==>
           && r.monthlyPayments[i].month == 1 && r.monthlyPayments[i].debtName == sorted[i].name
           && r.monthlyPayments[i].interest == MonthlyInterest(sorted[i].balance, sorted[i].apr)
  {
    var st := Start(sorted);
    if |sorted| > 0 {
      var next := Step(st, extraPayment);
      StartStepInterests(sorted, extraPayment);
      StartStepNames(sorted, extraPayment);
      var fin := Simulate(next, extraPayment);
      assert fin.ledger[..|next.ledger|] == next.ledger by {
        StepRowsNotLater(st, extraPayment);
        SimulateKeepsRows(next, extraPayment);
      }
      assert !st.debts[0].isPaidOff;
      assert fin == Simulate(st, extraPayment);
      StrategyOfRun(sorted, extraPayment, payoffMethod);
      forall i | 0 <= i < |sorted|
        ensures && fin.ledger[i].month == 1 && fin.ledger[i].debtName == sorted[i].name
                && fin.ledger[i].interest == MonthlyInterest(sorted[i].balance, sorted[i].apr)
      {
        assert fin.ledger[i] == next.ledger[i];
      }
    }
  }

  lemma {:induction false} AllOpenNames(ws: seq<WorkingDebt>)
    requires forall i :: 0 <= i < |ws| ==> !ws[i].isPaidOff
    ensures |OpenNames(ws)| == |ws|
    ensures forall i :: 0 <= i < |ws| ==> OpenNames(ws)[i] == ws[i].debt.name
  {
    if |ws| > 0 {
      AllOpenNames(ws[1..]);
    }
  }
}

=== FILE: validation.dfy ===
/**
 The credential validators of lib/validation.ts. Each returns the
 `PasswordValidationResult` shape `{ valid, error? }`; the checks run in a
 fixed order and the first failing one decides the message.
 */
module Validation {
  import opened Wrappers

  /** `{ valid: boolean, error?: string }`. */
  datatype ValidationResult = ValidationResult(valid: bool, error: Option<string>)

  function Accept(): (r: ValidationResult)
    ensures r.valid && r.error.None?
  {
    ValidationResult(true, None)
  }

  function Reject(message: string): (r: ValidationResult)
    ensures !r.valid && r.error == Some(message)
  {
    ValidationResult(false, Some(message))
  }

  /** A result is well formed when it carries an error exactly when it is not valid. */
  predicate WellFormed(r: ValidationResult) {
    r.valid <==> r.error.None?
  }

  // ---------------------------------------------------------------------------
  // Passwords

  const MinPasswordLength: nat := 12

  const PasswordTooShort: string := "Password must be at least 12 characters"
  const PasswordNeedsLowercase: string := "Password must contain at least one lowercase letter"
  const PasswordNeedsUppercase: string := "Password must contain at least one uppercase letter"
  const PasswordNeedsNumber: string := "Password must contain at least one number"
  const PasswordNeedsSpecial: string := "Password must contain at least one special character"

  /** The members of the regular-expression class `[!@#$%^&*()_+\-=\[\]{};':"\\|,.<>\/?]`. */
  const SpecialCharacters: set<char> := {
    '!', '@', '#', '$', '%', '^', '&', '*', '(', ')', '_', '+', '-', '=', '[', ']',
    '{', '}', ';', '\'', ':', '"', '\\', '|', ',', '.', '<', '>', '/', '?'
  }

  predicate IsLower(c: char) { 'a' <= c <= 'z' }

  predicate IsUpper(c: char) { 'A' <= c <= 'Z' }

  predicate IsDigit(c: char) { '0' <= c <= '9' }

  predicate IsSpecial(c: char) { c in SpecialCharacters }

  /** `/[class]/.test(s)`: some character of `s` belongs to the class. */
  function Contains(s: string, inClass: char -> bool): (b: bool)
    ensures b <==> exists i :: 0 <= i < |s| && inClass(s[i])
  {
    |s| > 0 && (inClass(s[0]) || Contains(s[1..], inClass))
  }

  /** The password rule, stated directly: long enough and one character of each of the four kinds. */
  ghost predicate StrongPassword(p: string) {
    && |p| >= MinPasswordLength
    && (exists i :: 0 <= i < |p| && 'a' <= p[i] <= 'z')
    && (exists i :: 0 <= i < |p| && 'A' <= p[i] <= 'Z')
    && (exists i :: 0 <= i < |p| && '0' <= p[i] <= '9')
    && (exists i :: 0 <= i < |p| && p[i] in SpecialCharacters)
  }

  /**
   `validatePassword`. The length check comes first, so a short password is
   rejected for its length whatever it contains; then lowercase, uppercase,
   digit and special character, each reported only when every earlier check
   passed.
   */
  function ValidatePassword(password: string): (r: ValidationResult)
    ensures WellFormed(r)
    ensures r.valid <==> StrongPassword(password)
    ensures r.error == Some(PasswordTooShort) <==> |password| < MinPasswordLength
    ensures r.error == Some(PasswordNeedsLowercase) <==>
      |password| >= MinPasswordLength && forall i :: 0 <= i < |password| ==> !IsLower(password[i])
    ensures r.error == Some(PasswordNeedsUppercase) <==>
      && |password| >= MinPasswordLength
      && (exists i :: 0 <= i < |password| && IsLower(password[i]))
      && forall i :: 0 <= i < |password| ==> !IsUpper(password[i])
    ensures r.error == Some(PasswordNeedsNumber) <==>
      && |password| >= MinPasswordLength
      && (exists i :: 0 <= i < |password| && IsLower(password[i]))
      && (exists i :: 0 <= i < |password| && IsUpper(password[i]))
      && forall i :: 0 <= i < |password| ==> !IsDigit(password[i])
    ensures r.error == Some(PasswordNeedsSpecial) <==>
      && |password| >= MinPasswordLength
      && (exists i :: 0 <= i < |password| && IsLower(password[i]))
      && (exists i :: 0 <= i < |password| && IsUpper(password[i]))
      && (exists i :: 0 <= i < |password| && IsDigit(password[i]))
      && forall i :: 0 <= i < |password| ==> !IsSpecial(password[i])
  {
    if |password| < MinPasswordLength then Reject(PasswordTooShort)
    else if !Contains(password, IsLower) then Reject(PasswordNeedsLowercase)
    else if !Contains(password, IsUpper) then Reject(PasswordNeedsUppercase)
    else if !Contains(password, IsDigit) then Reject(PasswordNeedsNumber)
    else if !Contains(password, IsSpecial) then Reject(PasswordNeedsSpecial)
    else Accept()
  }

  /** The backquote, the tilde and the space are not special characters. */
  lemma NotSpecial()
    ensures !IsSpecial('`') && !IsSpecial('~') && !IsSpecial(' ')
  {
  }

  // ---------------------------------------------------------------------------
  // E-mail addresses

  const EmailRequired: string := "Email is required"
  const EmailMalformed: string := "Please enter a valid email address"

  /**
   JavaScript's `\s`, which is also what `String.prototype.trim` removes:
   the ECMAScript white space and line terminator characters.
   */
  predicate IsWhitespace(c: char) {
    || c == '\t' || c == '\n' || c == '\U{000B}' || c == '\U{000C}' || c == '\r' || c == ' '
    || c == '\U{00A0}' || c == '\U{1680}' || ('\U{2000}' <= c <= '\U{200A}')
    || c == '\U{2028}' || c == '\U{2029}' || c == '\U{202F}' || c == '\U{205F}'
    || c == '\U{3000}' || c == '\U{FEFF}'
  }

  /** `!email || email.trim().length === 0`. */
  predicate Blank(s: string) {
    forall i :: 0 <= i < |s| ==> IsWhitespace(s[i])
  }

  /** The class `[^\s@]`. */
  predicate FieldChar(c: char) {
    !IsWhitespace(c) && c != '@'
  }

  /** `[^\s@]+`. */
  ghost predicate IsField(t: string) {
    |t| > 0 && forall i :: 0 <= i < |t| ==> FieldChar(t[i])
  }

  /** `[^\s@]+\.[^\s@]+`, whole string. */
  ghost predicate MatchesDomain(t: string) {
    exists d :: 0 <= d < |t| && t[d] == '.' && IsField(t[..d]) && IsField(t[d + 1..])
  }

  /** `^[^\s@]+@[^\s@]+\.[^\s@]+$`. */
  ghost predicate MatchesEmailPattern(s: string) {
    exists a :: 0 <= a < |s| && s[a] == '@' && IsField(s[..a]) && MatchesDomain(s[a + 1..])
  }

  /** The position of the first `c` in `s`, if any. */
  function IndexOf(s: string, c: char): (r: Option<nat>)
    ensures r.None? ==> c !in s
    ensures r.Some? ==> r.value < |s| && s[r.value] == c && c !in s[..r.value]
  {
    if |s| == 0 then None
    else if s[0] == c then Some(0)
    else
      match IndexOf(s[1..], c)
      case None => None
      case Some(i) =>
        assert s[..i + 1] == [s[0]] + s[1..][..i];
        Some(i + 1)
  }

  /** A `.` somewhere other than at either end. */
  predicate HasInnerDot(t: string) {
    |t| >= 3 && '.' in t[1..|t| - 1]
  }

  /**
   The shape the pattern accepts, checked by scanning: no white space, exactly
   one `@`, something before it, and after it a `.` with at least one
   character on each side.
   */
  predicate EmailShape(s: string) {
    && !Contains(s, IsWhitespace)
    && match IndexOf(s, '@')
       case None => false
       case Some(a) => a > 0 && '@' !in s[a + 1..] && HasInnerDot(s[a + 1..])
  }

  /** Every character of a field is a field character. */
  lemma FieldChars(t: string, i: int)
    requires IsField(t) && 0 <= i < |t|
    ensures FieldChar(t[i])
  {
  }

  lemma {:induction false} ShapeMatchesPattern(s: string)
    requires EmailShape(s)
    ensures MatchesEmailPattern(s)
  {
    var a := IndexOf(s, '@').value;
    var left := s[..a];
    var t := s[a + 1..];
    var k :| 0 <= k < |t[1..|t| - 1]| && t[1..|t| - 1][k] == '.';
    var d := k + 1;
    assert t[d] == '.';
    assert IsField(left) by {
      forall i | 0 <= i < |left|
        ensures FieldChar(left[i])
      {
        assert s[i] == left[i];
        assert left[i] in left;
      }
    }
    var host := t[..d];
    var tld := t[d + 1..];
    assert IsField(host) by {
      forall i | 0 <= i < |host|
        ensures FieldChar(host[i])
      {
        assert host[i] == s[a + 1 + i];
        assert t[i] in t;
      }
    }
    assert IsField(tld) by {
      forall i | 0 <= i < |tld|
        ensures FieldChar(tld[i])
      {
        assert tld[i] == s[a + d + 2 + i];
        assert t[d + 1 + i] in t;
      }
    }
    assert MatchesDomain(t);
  }

  /** No character of an address split as `local@host.tld` by the pattern is white space. */
  lemma MatchedCharIsNotWhitespace(s: string, a: nat, d: nat, i: nat)
    requires a < |s| && s[a] == '@' && IsField(s[..a])
    requires d < |s[a + 1..]| && s[a + 1..][d] == '.'
    requires IsField(s[a + 1..][..d]) && IsField(s[a + 1..][d + 1..])
    requires i < |s|
    ensures !IsWhitespace(s[i])
  {
    var t := s[a + 1..];
    if i < a {
      FieldChars(s[..a], i);
    } else if i == a {
    } else if i < a + 1 + d {
      FieldChars(t[..d], i - a - 1);
    } else if i == a + 1 + d {
      assert s[i] == t[d];
    } else {
      FieldChars(t[d + 1..], i - a - d - 2);
    }
  }

  /** The pattern's split leaves no `@` on either side of the separator. */
  lemma MatchedSidesHaveNoAt(s: string, a: nat, d: nat)
    requires a < |s| && s[a] == '@' && IsField(s[..a])
    requires d < |s[a + 1..]| && s[a + 1..][d] == '.'
    requires IsField(s[a + 1..][..d]) && IsField(s[a + 1..][d + 1..])
    ensures '@' !in s[..a] && '@' !in s[a + 1..]
  {
    var t := s[a + 1..];
    forall j | 0 <= j < |t| && j != d
      ensures t[j] != '@'
    {
      if j < d {
        FieldChars(t[..d], j);
      } else {
        FieldChars(t[d + 1..], j - d - 1);
      }
    }
  }

  /** An address split by the pattern as `local@host.tld` has the scanned shape. */
  lemma SplitHasShape(s: string, a: nat, d: nat)
    requires a < |s| && s[a] == '@' && IsField(s[..a])
    requires d < |s[a + 1..]| && s[a + 1..][d] == '.'
    requires IsField(s[a + 1..][..d]) && IsField(s[a + 1..][d + 1..])
    ensures EmailShape(s)
  {
    var t := s[a + 1..];
    forall i | 0 <= i < |s|
      ensures !IsWhitespace(s[i])
    {
      MatchedCharIsNotWhitespace(s, a, d, i);
    }
    assert !Contains(s, IsWhitespace);
    MatchedSidesHaveNoAt(s, a, d);
    var found := IndexOf(s, '@');
    assert s[a] in s;
    assert found == Some(a);
    assert |t| >= 3 && t[1..|t| - 1][d - 1] == '.';
  }

  lemma PatternMatchesShape(s: string)
    requires MatchesEmailPattern(s)
    ensures EmailShape(s)
  {
    var a :| 0 <= a < |s| && s[a] == '@' && IsField(s[..a]) && MatchesDomain(s[a + 1..]);
    var t := s[a + 1..];
    var d :| 0 <= d < |t| && t[d] == '.' && IsField(t[..d]) && IsField(t[d + 1..]);
    SplitHasShape(s, a, d);
  }

  lemma EmailShapeIsPattern(s: string)
    ensures EmailShape(s) <==> MatchesEmailPattern(s)
  {
    if EmailShape(s) {
      ShapeMatchesPattern(s);
    }
    if MatchesEmailPattern(s) {
      PatternMatchesShape(s);
    }
  }

  /**
   `validateEmail`. An empty or white-space-only address is reported as
   missing before any format check; otherwise the address is accepted
   exactly when it matches the pattern.
   */
  function ValidateEmail(email: string): (r: ValidationResult)
    ensures WellFormed(r)
    ensures r.error == Some(EmailRequired) <==> Blank(email)
    ensures r.error == Some(EmailMalformed) <==> !Blank(email) && !MatchesEmailPattern(email)
    ensures r.valid <==> MatchesEmailPattern(email)
  {
    EmailShapeIsPattern(email);
    if Blank(email) then Reject(EmailRequired)
    else if !EmailShape(email) then Reject(EmailMalformed)
    else Accept()
  }
}

=== FILE: wrappers.dfy ===
/** The Some/None datatype used for optional fields and for searches that may find nothing. */
module Wrappers {

  datatype Option<+T> = None | Some(value: T)
}
